=== FILE: README.md ===
# extract_msr in Dafny

A Dafny model of `extract_msr.rb`. The script turns the model-specific
register (MSR) tables of chapter 35 of Intel's *64 and IA-32 Architectures
Software Developer's Manual*, pasted as plain text, into a C header of
`#define MSR_<NAME> 0x<address>U` constants. The model covers the script's
whole pipeline, from the text once it has been read to the generated
`#define` block and the closing `#endif`:

| stage | module | file |
|---|---|---|
| character classes, `String#lines`, `chomp`, `split(/[\t ]+/)`, base-16 parse and `%x`/`%08x` | `Text` | `text.dfy` |
| faults and the `Option`/`Result` wrappers | `Types` | `types.dfy` |
| the `gsub!` that joins addresses wrapped over two lines | `Preprocess` | `preprocess.dfy` |
| the scan that sorts record lines into families | `Grouping` | `grouping.dfy` |
| name and address extraction from one record group | `Extract` | `extract.dfy` |
| the first-occurrence-wins duplicate filter | `Duplicates` | `dedup.dfy` |
| printing the families | `Emit` | `emit.dfy` |
| the whole run | `Pipeline` | `pipeline.dfy` |

Two ways the script crashes on the text it reads are results, not
preconditions. `Pipeline.Generate` returns `Err(RecordBeforeHeader(i))` for the `nil.push` of a record line met
before any section header. It returns `Err(MissingName(text))` for a group
whose name token is missing: `split[1]`, or `split[2]` when the decimal
column is present, is nil, and the script calls a method on it. Grouping runs
to the end before extraction starts. So when both faults are present, the
first one is the one reported.

Each stage comes with an independent description of its result. The scan's
result is described position by position (`Grouping.Collected`): one
section per header line, each holding the groups of the record lines up to
the next header. Extraction is described group by group: a family holds
the records of its section's groups (`Extract.ExtractSections`), a single
group yields its record, nothing or its fault (`Extract.ExtractGroupsSingle`),
and runs of groups join in order (`Extract.ExtractGroupsAppend`). Each
record is the cleaned-up name token (`Extract.ExtractRecord`), with one
lemma per clean-up rule stating the constant it produces. The filter's
result is described as the first occurrences of each name
(`Duplicates.FirstOccurrences`). For the printed text there is
a reader (`Emit.ParseDefine`, `Emit.Defines`) that takes the `#define` lines
back out of it, and one (`Emit.ReadCaption`, `Emit.Captions`) that takes the
family headers back out of the banners. The main results are:

- `Pipeline.GenerateSpec`: the `#define` lines of a successful run are
  exactly the first record of every name, in family-then-record order. So
  no name is defined twice and every extracted name is defined. Each name
  starts with `MSR_` and holds no blank, line break or `(`.
- `Pipeline.GenerateFaults`: the run fails exactly when some record line
  has no header above it, or some group has no name token. The first case
  is reported as `RecordBeforeHeader`.

Behaviour worth knowing that the model reproduces, as the code does it:

- `/^\d+$/` in Ruby anchors at line boundaries. A token such as `"1234\nNAME"`
  therefore counts as a decimal cell (`Extract.DigitLineFirst`), and so does
  `"NAME\n12"`, whose second line is all digits (`Extract.DigitLineSplit`).
- The "Table" clean-up and the `MSR_` test look at the token before line
  breaks are removed. `"FooTable\n"` keeps its `Table`
  (`Extract.TableBeforeLineBreakKept`). A token made of a line break and then
  `MSR_FOO` becomes `MSR_MSR_FOO` (`Extract.NormalizeCanDoublePrefix`). A name
  that already starts with `MSR_` on one line is left as it is
  (`Extract.NormalizePlain`).
- `(\(.*$)` removes a `(` up to the end of its *line*, not of the token
  (`Extract.StripNotesDropsNote`).
- Values are not cut to 32 bits. The value is the unbounded hex value of the
  address, and `%08x` pads to at least eight digits and prints more when the
  value needs them (`Text.Hex8`).
- A record line before any header makes the script raise an exception on
  `nil.push`; the run stops at the first such line (`Grouping.GroupFault`).
- The wrapped-address pattern needs the `_` before the line break
  (`<hex>_\n<hex>H\n`); an address wrapped without it is left as two lines
  (`Preprocess.MatchAtSound`, `Preprocess.RewriteIdentity`).

## Model

| member | source | states |
|---|---|---|
| `Preprocess.MatchAtSound` | extract_msr.rb:39 | what the matcher finds at the start of the text is an occurrence of the pattern: two non-empty runs of `[0-9A-F]` around `_\n`, then `H\n` |
| `Preprocess.MatchAtComplete` | extract_msr.rb:39 | every text that begins with an occurrence is matched, with exactly those two runs (greedy runs stop at the `_` and the `H`) |
| `Preprocess.RewriteIdentity` | extract_msr.rb:39 | text with no occurrence is returned unchanged; text with an occurrence gets strictly shorter, so it changes exactly when it holds an occurrence |
| `Preprocess.RewriteAtMatch` | extract_msr.rb:39 | an occurrence at the start becomes the two runs joined, then `H `, then the rewrite of the rest |
| `Preprocess.RewriteLeftmost` | extract_msr.rb:39 | the leftmost occurrence is replaced and the scan resumes after it; the text before it is copied unchanged |
| `Text.LinesSpec` | extract_msr.rb:40 | the lines put back together give the text; each line has at most one `\n`, at its end; every line but the last ends with `\n` |
| `Text.LinesAppend` | extract_msr.rb:40 | cutting into lines distributes over a concatenation whose first part ends with a line break |
| `Grouping.HeaderIsNotRecordStart` | extract_msr.rb:50-53 | a header line never starts a record, so the order of the two `when` branches does not matter |
| `Grouping.GroupAt` | extract_msr.rb:54-57 | a group is its record line plus the following line exactly when that line does not start a record; past the last line it adds the empty string |
| `Grouping.HeadersBeforeExact` | extract_msr.rb:50-52 | the section positions are exactly the lines matching the header pattern, in input order |
| `Grouping.CollectSpec` | extract_msr.rb:48-60 | from any point of the scan, it fails exactly when a later record line has no header above it, and otherwise ends in the state described position by position |
| `Grouping.GroupSpec` | extract_msr.rb:45-60 | the grouping fails exactly when some record line has no header above it; otherwise there is one section per header, in input order, each holding the groups of exactly the record lines up to the next header |
| `Grouping.CollectFault` | extract_msr.rb:48-58 | resumed from a state that describes the lines already scanned, none of them an orphan, the scan can only fail on a record line with no header above it; the fault names that line, and no earlier line is such an orphan |
| `Grouping.GroupFault` | extract_msr.rb:48-58 | a failed grouping names the first record line of the text that has no header above it |
| `Grouping.GroupsAreRecords` | extract_msr.rb:53-58 | every group the scan produces starts with a record line |
| `Text.Split` | extract_msr.rb:67 | no token holds a blank; a text not starting with a blank splits into its maximal non-blank runs |
| `Text.SplitFirstWord` | extract_msr.rb:67 | a text that starts with a word and then a blank splits into that word and the words of the rest |
| `Text.SplitLeadingBlank` | extract_msr.rb:67 | a text that starts with blanks splits into an empty first field, then its words |
| `Text.SplitBlanks` | extract_msr.rb:67 | a text made only of blanks splits into no field at all |
| `Text.ChompSpec` | extract_msr.rb:69 | the result is the text without one trailing `\r\n`, `\n` or `\r`, a trailing `\r\n` going as one unit, and equals the text exactly when there is none |
| `Extract.DigitLineSingle` | extract_msr.rb:69 | on a token without line breaks, `/^\d+$/` holds exactly when the token is non-empty and all decimal digits |
| `Extract.DigitLineFirst` | extract_msr.rb:69 | a token whose first line is all digits passes the test, whatever its next line holds |
| `Extract.DigitLineSplit` | extract_msr.rb:69 | the test looks at every line: a token made of a first line and the rest passes exactly when the first line is a non-empty run of digits or some line of the rest passes |
| `Extract.NameToken` | extract_msr.rb:67-75 | the name is token 2 of the split when some line of the chomped token 1 is all digits, otherwise token 1; it is missing when the split has fewer tokens than that; it holds no blank |
| `Extract.NameTokenWithDecimal` | extract_msr.rb:69-71 | on a line `<addr>H <digits> <name> ...` the name is token 2 |
| `Extract.NameTokenWithoutDecimal` | extract_msr.rb:72-75 | on a line `<addr>H <name> ...` whose name has no all-digit line, the name is token 1 |
| `Extract.TrimSuffix` | extract_msr.rb:79-87 | only a suffix is removed: five characters for a trailing `Table`, otherwise one for the three misprinted names or a name containing `MC\d*_ADDR\d`, otherwise none |
| `Extract.TableBeforeLineBreakKept` | extract_msr.rb:79-81 | a token ending in `Table` and then a line break keeps its `Table` |
| `Extract.StripNotes` | extract_msr.rb:92 | the result holds no `\n` and no `(`, only characters of the input, and is not longer |
| `Extract.StripNotesKeepsPlain` | extract_msr.rb:92 | text without `\n` or `(` passes through unchanged |
| `Extract.StripNotesDropsNote` | extract_msr.rb:92 | a `(` takes the rest of its line with it |
| `Extract.StripNotesJoinsLines` | extract_msr.rb:92 | a name broken over two lines, `A\nB`, becomes `AB` |
| `Extract.AddPrefix` | extract_msr.rb:89-91 | the result starts with `MSR_`; a name already starting with it is kept, any other gets it in front |
| `Extract.AddPrefixIdempotent` | extract_msr.rb:89-91 | adding the prefix to an already prefixed name changes nothing, so `MSR_` is never added twice |
| `Extract.Normalize` | extract_msr.rb:89-92 | every normalised name starts with `MSR_` and holds no line break, `(` or blank |
| `Extract.NormalizePlain` | extract_msr.rb:89-92 | a one-line name without a note keeps an existing `MSR_` prefix and otherwise gets exactly one |
| `Extract.NormalizeCanDoublePrefix` | extract_msr.rb:89-92 | a token starting with a line break and then `MSR_` gets the prefix twice |
| `Extract.LeadToken` | extract_msr.rb:94-95 | token 0 of a record group is its hex address followed by `H` |
| `Extract.AddressValue` | extract_msr.rb:95 | the value is the base-16 value of the address digits |
| `Extract.ExtractRecord` | extract_msr.rb:66-97 | a group fails exactly when its name token is missing and yields nothing exactly when that token is garbage; any record it yields is the name token with the suffix clean-up, the prefix and the note removal applied, well named, and carries the address's value |
| `Extract.ExtractPlainRecord` | extract_msr.rb:76-97 | a group whose name token no clean-up rule touches yields that token with the prefix, and the address's value |
| `Extract.ExtractTableRecord` | extract_msr.rb:79-92 | a name token `<x>Table` yields the constant `MSR_<x>` (or `<x>` when it already has the prefix) |
| `Extract.ExtractMisprintedRecord` | extract_msr.rb:83-92 | each of the three misprinted names yields `MSR_` and the name without its last character |
| `Extract.ExtractMcAddrRecord` | extract_msr.rb:85-92 | a name matching `MC\d*_ADDR\d` that no earlier rule touches loses its last character before the prefix is added |
| `Extract.ExtractTwoLineRecord` | extract_msr.rb:89-92 | a name token broken over two lines, `A\nB`, yields `MSR_AB`, or `AB` when `A` already starts with `MSR_` |
| `Extract.ExtractUsualRecord` | extract_msr.rb:66-97 | the line `<addr>H <digits> <name> ...` yields `AddPrefix(<name>)`, which is `MSR_<name>`, or the name itself when it already starts with `MSR_`, with the value of `<addr>` |
| `Extract.ExtractGroups` | extract_msr.rb:66-98 | a family's groups extract exactly when every group has its name token; the fault is always a missing name; all records are well named |
| `Extract.ExtractGroupsSingle` | extract_msr.rb:66-98 | one group contributes its record, nothing when its name is garbage, or its fault |
| `Extract.ExtractGroupsAppend` | extract_msr.rb:66-98 | the groups are worked through in order: two runs of groups give the records of the first followed by those of the second, and the first fault is the one raised |
| `Extract.ExtractSections` | extract_msr.rb:63-101 | one family per section, with the same header, in order, holding exactly the records of that section's groups; it fails exactly when some group lacks its name token |
| `Duplicates.KeepNames` | extract_msr.rb:106-113 | the kept names are exactly the family's names not seen before, each kept once |
| `Duplicates.KeepIsFirstOccurrences` | extract_msr.rb:104-114 | the filter keeps exactly the records whose name was not seen before nor occurs earlier |
| `Duplicates.FirstOccurrencesAreFirst` | extract_msr.rb:107-111 | each kept record is, in the input, the first record of its name, and its name was not in the seen-set |
| `Duplicates.KeepIsSubsequence` | extract_msr.rb:106 | the filter only drops records and keeps the rest in their order |
| `Duplicates.KeepUnique` | extract_msr.rb:106-113 | records with unique names not yet seen all pass |
| `Duplicates.DedupFlatten` | extract_msr.rb:104-114 | filtering family by family with one seen-set equals filtering all records at once; families and headers are kept |
| `Duplicates.DedupSpec` | extract_msr.rb:104-114 | after the filter every name occurs once across all families; the records are the first occurrences, in order, nothing added or altered, no name lost |
| `Duplicates.DedupIdempotent` | extract_msr.rb:104-114 | running the filter again changes nothing |
| `Duplicates.DedupWellNamed` | extract_msr.rb:106 | well-formed names stay well formed |
| `Text.ToHex` | extract_msr.rb:167 | `%x` gives lower-case digits without a leading zero that read back as the value |
| `Text.Hex8` | extract_msr.rb:167 | `%08x` gives at least eight lower-case digits that read back as the value, padding only up to eight |
| `Emit.LongestName` | extract_msr.rb:163 | every name of the family fits the width, and one name has exactly that length |
| `Emit.DefineLineLayout` | extract_msr.rb:165-167 | one definition printed at width w is `#define `, the name, spaces up to column w + 12, `0x`, the hex digits and `U\n` |
| `Emit.FamilyLines` | extract_msr.rb:156-167 | a printed family with records is its three banner lines followed by exactly one definition line per record, in order, each printed at the width of the family's longest name |
| `Emit.FamilyPadding` | extract_msr.rb:162-167 | in the printed text of a family with records, every definition line has its name followed by spaces up to one shared column, at least four of them, and `0x` at that column; the longest name is followed by exactly four |
| `Emit.AlignedWidthUnique` | extract_msr.rb:162-167 | the address column of a family with records is determined by its printed lines: they are aligned at one width only |
| `Emit.ParseDefineLine` | extract_msr.rb:165-167 | a definition line of a well-formed name reads back as its record |
| `Emit.DefinesOfBanner` | extract_msr.rb:156-160 | the comment banner around a family header contributes no `#define` line |
| `Emit.PlaceholderIffEmpty` | extract_msr.rb:162-171 | a family prints `// All MSRs are already defined above` exactly when it has no records |
| `Emit.DefinesOfFamily` | extract_msr.rb:156-171 | a printed family defines exactly its records, in order |
| `Emit.DefinesAroundSeparator` | extract_msr.rb:152-154 | the three blank lines between families add no definitions |
| `Emit.RenderFamiliesAppend` | extract_msr.rb:151-154 | every family but the first is preceded by three blank lines: the rendering of two non-empty runs of families is the first run, `\n\n\n`, then the second |
| `Emit.BannerLines` | extract_msr.rb:156-160 | a printed family opens with three lines: `/*`, ` * ` with its chomped header, and ` */` |
| `Emit.CaptionsOfRender` | extract_msr.rb:151-174 | read back line by line, the lines of the output that start with ` * ` carry the families' chomped headers, one per family, in family order; no definition, placeholder, separator or `#endif` line reads as one |
| `Emit.DefinesOfRender` | extract_msr.rb:151-174 | the `#define` lines of the output are exactly the records of all families, family by family, in order |
| `Pipeline.Families` | extract_msr.rb:45-101 | the families are the grouping's sections, in order, each with its header and the records its groups yield; every extracted name is well formed |
| `Pipeline.FamilyHeaders` | extract_msr.rb:50-52 | every family header is one line of the preprocessed text |
| `Pipeline.GenerateFaults` | extract_msr.rb:45-98 | a run succeeds exactly when grouping succeeds and every group has its name token; grouping succeeds exactly when no record line precedes all headers, which is the fault reported then |
| `Pipeline.GenerateSpec` | extract_msr.rb:39-174 | the output's `#define` lines are the first occurrence of every name, in order, unique, every extracted name present, all well named; the output ends with `#endif` |

## Left out

- Command-line handling (extract_msr.rb:6-33): option parsing and the help text are process control. The path argument is checked but never used.
- Reading `./copied.txt` (extract_msr.rb:38): the model starts from the file's contents as a string.
- The include guard, licence and naming-convention preamble (extract_msr.rb:117-150): fixed text printed before the families. `Emit.Render` models the output from the first family banner to `#endif`.
- Ruby's general regular-expression engine: only the patterns the script uses are modelled, each as a predicate over characters.
- `String#to_i(16)` leniency: a record group always starts with `[0-9A-F]+H `, so token 0 is always well-formed hex and the lenient cases never arise.
- Output channel: `puts` and `print` are modelled as the string they write. Writing it to standard output is not modelled.
- Character decoding (extract_msr.rb:38-39): the model takes the text as already decoded characters. In Ruby, `gsub!` raises `ArgumentError` on a string holding bytes invalid in its encoding (for example any non-ASCII byte under a C locale); that third crash is not modelled, because it depends on the process's locale rather than on the script.

=== FILE: dedup.dfy ===
/**
 * The duplicate filter of extract_msr.rb (lines 104-114): one set of seen
 * names is shared by all families; families are visited in order and each
 * family's records in order, and a record is kept only when its name has
 * not been seen before.
 */
module Duplicates {
  import opened Extract

  function Names(rs: seq<Record>): set<string> {
    set r | r in rs :: r.name
  }

  lemma NamesOfConcat(a: seq<Record>, b: seq<Record>)
    ensures Names(a + b) == Names(a) + Names(b)
  {
    assert forall r :: r in a + b <==> r in a || r in b;
  }

  /** No name occurs twice. */
  predicate UniqueNames(rs: seq<Record>) {
    forall i, j :: 0 <= i < j < |rs| ==> rs[i].name != rs[j].name
  }

  /** `a` is `b` with some elements left out, the rest in their order. */
  predicate IsSubsequence<T(==)>(a: seq<T>, b: seq<T>)
    decreases |b|
  {
    if a == [] then true
    else if b == [] then false
    else if a[0] == b[0] then IsSubsequence(a[1..], b[1..])
    else IsSubsequence(a, b[1..])
  }

  /** `select!` on one family's records with the shared seen-set: the
      records whose name is not in the set yet, the set growing by each
      name as the records are visited. The set after the family is
      `seen + Names(rs)`. */
  function Keep(rs: seq<Record>, seen: set<string>): seq<Record>
    decreases |rs|
  {
    if rs == [] then []
    else if rs[0].name in seen then Keep(rs[1..], seen)
    else [rs[0]] + Keep(rs[1..], seen + {rs[0].name})
  }

  /** The kept names are the names not seen before, each kept once. */
  lemma {:induction false} KeepNames(rs: seq<Record>, seen: set<string>)
    ensures Names(Keep(rs, seen)) == Names(rs) - seen
    ensures UniqueNames(Keep(rs, seen))
    decreases |rs|
  {
    if rs != [] {
      var x := rs[0];
      var rest := rs[1..];
      assert Names(rs) == {x.name} + Names(rest) by {
        NamesOfConcat([x], rest);
        assert rs == [x] + rest;
      }
      if x.name in seen {
        KeepNames(rest, seen);
      } else {
        var seen1 := seen + {x.name};
        KeepNames(rest, seen1);
        var kept := Keep(rest, seen1);
        assert Keep(rs, seen) == [x] + kept;
        assert Names([x] + kept) == {x.name} + Names(kept) by {
          NamesOfConcat([x], kept);
        }
        assert forall j :: 0 <= j < |kept| ==> kept[j].name in Names(kept);
        assert forall j :: 0 < j < |[x] + kept| ==> ([x] + kept)[j] == kept[j - 1];
      }
    }
  }

  /** The families in order, each filtered against everything seen before. */
  function DedupFrom(fs: seq<Family>, seen: set<string>): seq<Family>
    decreases |fs|
  {
    if fs == [] then []
    else
      var rs := fs[0].records;
      [Family(fs[0].header, Keep(rs, seen))] + DedupFrom(fs[1..], seen + Names(rs))
  }

  function Dedup(fs: seq<Family>): seq<Family> {
    DedupFrom(fs, {})
  }

  /** All records of all families, family by family. */
  function Flatten(fs: seq<Family>): seq<Record> {
    if fs == [] then [] else fs[0].records + Flatten(fs[1..])
  }

  // ---------------------------------------------------------------------
  // A reference definition: keep a record exactly when no earlier record
  // (nor the seen-set) has its name.

  function FirstOccurrences(rs: seq<Record>, seen: set<string>): seq<Record>
    decreases |rs|
  {
    if rs == [] then []
    else
      var init := rs[..|rs| - 1];
      var last := rs[|rs| - 1];
      FirstOccurrences(init, seen) + (if last.name in seen + Names(init) then [] else [last])
  }

  /** Filtering a concatenation filters the second part against what the
      first part added to the seen-set. */
  lemma {:induction false} KeepConcat(a: seq<Record>, b: seq<Record>, seen: set<string>)
    ensures Keep(a + b, seen) == Keep(a, seen) + Keep(b, seen + Names(a))
    decreases |a|
  {
    if a == [] {
      assert a + b == b;
      assert seen + Names(a) == seen;
    } else {
      var x := a[0];
      var seen1 := if x.name in seen then seen else seen + {x.name};
      var ka := Keep(a[1..], seen1);
      var kb := Keep(b, seen1 + Names(a[1..]));
      assert Keep(a[1..] + b, seen1) == ka + kb by {
        KeepConcat(a[1..], b, seen1);
      }
      assert Keep(a + b, seen) == (if x.name in seen then [] else [x]) + Keep(a[1..] + b, seen1) by {
        assert (a + b)[0] == x && (a + b)[1..] == a[1..] + b;
      }
      assert Keep(a, seen) == (if x.name in seen then [] else [x]) + ka;
      assert seen1 + Names(a[1..]) == seen + Names(a) by {
        assert a == [x] + a[1..];
        SeenAfterHead(x, a[1..], seen);
      }
      var h: seq<Record> := if x.name in seen then [] else [x];
      assert h + (ka + kb) == h + ka + kb;
    }
  }

  /** The seen-set after the first record and then the rest. */
  lemma SeenAfterHead(x: Record, rest: seq<Record>, seen: set<string>)
    ensures (if x.name in seen then seen else seen + {x.name}) + Names(rest) == seen + Names([x] + rest)
  {
    NamesOfConcat([x], rest);
    assert Names([x]) == {x.name};
  }

  /** The seen-set filter keeps exactly the first occurrence of each name. */
  lemma {:induction false} KeepIsFirstOccurrences(rs: seq<Record>, seen: set<string>)
    ensures Keep(rs, seen) == FirstOccurrences(rs, seen)
    decreases |rs|
  {
    if rs != [] {
      var init := rs[..|rs| - 1];
      var last := rs[|rs| - 1];
      assert rs == init + [last];
      KeepConcat(init, [last], seen);
      KeepIsFirstOccurrences(init, seen);
      KeepSingle(last, seen + Names(init));
    }
  }

  lemma KeepSingle(x: Record, seen: set<string>)
    ensures Keep([x], seen) == if x.name in seen then [] else [x]
  {
    assert [x][1..] == [];
  }

  /** Each kept record is the first record of its name in the input, and
      the seen-set did not hold the name. */
  lemma {:induction false} FirstOccurrencesAreFirst(rs: seq<Record>, seen: set<string>)
    ensures forall k :: 0 <= k < |FirstOccurrences(rs, seen)| ==>
              var r := FirstOccurrences(rs, seen)[k];
              r.name !in seen && exists i :: 0 <= i < |rs| && rs[i] == r && r.name !in Names(rs[..i])
    decreases |rs|
  {
    if rs != [] {
      var init := rs[..|rs| - 1];
      var last := rs[|rs| - 1];
      FirstOccurrencesAreFirst(init, seen);
      var out := FirstOccurrences(rs, seen);
      var out0 := FirstOccurrences(init, seen);
      forall k | 0 <= k < |out|
        ensures out[k].name !in seen && exists i :: 0 <= i < |rs| && rs[i] == out[k] && out[k].name !in Names(rs[..i])
      {
        if k < |out0| {
          assert out[k] == out0[k];
          var i :| 0 <= i < |init| && init[i] == out0[k] && out0[k].name !in Names(init[..i]);
          assert rs[..i] == init[..i];
          assert rs[i] == init[i];
        } else {
          assert out[k] == last;
          assert rs[..|rs| - 1] == init;
        }
      }
    }
  }

  /** The filter only drops records; the ones it keeps are in their input
      order. */
  lemma {:induction false} KeepIsSubsequence(rs: seq<Record>, seen: set<string>)
    ensures IsSubsequence(Keep(rs, seen), rs)
    decreases |rs|
  {
    if rs != [] {
      if rs[0].name in seen {
        KeepIsSubsequence(rs[1..], seen);
        SkipHead(Keep(rs[1..], seen), rs);
      } else {
        KeepIsSubsequence(rs[1..], seen + {rs[0].name});
        var kept := Keep(rs[1..], seen + {rs[0].name});
        assert ([rs[0]] + kept)[1..] == kept;
      }
    }
  }

  lemma {:induction false} SkipHead<T>(a: seq<T>, b: seq<T>)
    requires |b| > 0 && IsSubsequence(a, b[1..])
    ensures IsSubsequence(a, b)
    decreases |b|
  {
    if a != [] && a[0] == b[0] {
      assert |b[1..]| > 0;
      if a[0] == b[1..][0] {
        SkipHead(a[1..], b[1..]);
      } else {
        SkipHead(a, b[1..]);
        SkipHead(a[1..], b[1..]) by {
          assert IsSubsequence(a, b[1..][1..]);
          SkipTail(a, b[1..][1..]);
        }
      }
    }
  }

  lemma SkipTail<T>(a: seq<T>, b: seq<T>)
    requires IsSubsequence(a, b)
    ensures a == [] || IsSubsequence(a[1..], b)
  {
  }

  /** Records already unique and unseen pass the filter untouched. */
  lemma {:induction false} KeepUnique(rs: seq<Record>, seen: set<string>)
    requires UniqueNames(rs) && Names(rs) !! seen
    ensures Keep(rs, seen) == rs
    decreases |rs|
  {
    if rs != [] {
      assert rs[0].name in Names(rs);
      assert Names(rs[1..]) <= Names(rs);
      assert rs[0].name !in Names(rs[1..]) by {
        assert forall j :: 0 <= j < |rs[1..]| ==> rs[1..][j] == rs[j + 1];
      }
      KeepUnique(rs[1..], seen + {rs[0].name});
      assert rs == [rs[0]] + rs[1..];
    }
  }

  /** The filter keeps only records of its input. */
  lemma {:induction false} KeepWithin(rs: seq<Record>, seen: set<string>)
    ensures forall k :: 0 <= k < |Keep(rs, seen)| ==> Keep(rs, seen)[k] in rs
    decreases |rs|
  {
    if rs != [] {
      assert forall x :: x in rs[1..] ==> x in rs;
      if rs[0].name in seen {
        KeepWithin(rs[1..], seen);
      } else {
        KeepWithin(rs[1..], seen + {rs[0].name});
      }
    }
  }

  // ---------------------------------------------------------------------
  // Across families

  /** Filtering family by family with one seen-set is filtering the
      concatenation of all families at once. */
  lemma {:induction false} DedupFlatten(fs: seq<Family>, seen: set<string>)
    ensures |DedupFrom(fs, seen)| == |fs|
    ensures forall k :: 0 <= k < |fs| ==> DedupFrom(fs, seen)[k].header == fs[k].header
    ensures Flatten(DedupFrom(fs, seen)) == Keep(Flatten(fs), seen)
    decreases |fs|
  {
    if fs != [] {
      var seen' := seen + Names(fs[0].records);
      DedupFlatten(fs[1..], seen');
      KeepConcat(fs[0].records, Flatten(fs[1..]), seen);
      var d := DedupFrom(fs, seen);
      assert d[1..] == DedupFrom(fs[1..], seen');
    }
  }

  /** After the filter every name occurs once across all families, each
      kept record is the first of its name in family-then-record order,
      nothing is added or altered, and no name is lost. */
  lemma DedupSpec(fs: seq<Family>)
    ensures |Dedup(fs)| == |fs|
    ensures forall k :: 0 <= k < |fs| ==> Dedup(fs)[k].header == fs[k].header
    ensures UniqueNames(Flatten(Dedup(fs)))
    ensures Flatten(Dedup(fs)) == FirstOccurrences(Flatten(fs), {})
    ensures IsSubsequence(Flatten(Dedup(fs)), Flatten(fs))
    ensures Names(Flatten(Dedup(fs))) == Names(Flatten(fs))
  {
    DedupFlatten(fs, {});
    KeepNames(Flatten(fs), {});
    KeepIsFirstOccurrences(Flatten(fs), {});
    KeepIsSubsequence(Flatten(fs), {});
  }

  /** Well-formed names stay well formed: the filter only drops records. */
  lemma {:induction false} DedupWellNamed(fs: seq<Family>, seen: set<string>)
    requires WellNamedFamilies(fs)
    ensures WellNamedFamilies(DedupFrom(fs, seen))
    decreases |fs|
  {
    if fs != [] {
      var kept := Keep(fs[0].records, seen);
      var seen' := seen + Names(fs[0].records);
      KeepWithin(fs[0].records, seen);
      assert WellNamedRecords(kept) by {
        forall k | 0 <= k < |kept|
          ensures WellNamed(kept[k].name)
        {
          var j :| 0 <= j < |fs[0].records| && fs[0].records[j] == kept[k];
        }
      }
      assert WellNamedFamilies(fs[1..]) by {
        assert forall k :: 0 <= k < |fs| - 1 ==> fs[1..][k] == fs[k + 1];
      }
      DedupWellNamed(fs[1..], seen');
      var d := DedupFrom(fs, seen);
      assert d == [Family(fs[0].header, kept)] + DedupFrom(fs[1..], seen');
      assert forall k :: 1 <= k < |d| ==> d[k] == DedupFrom(fs[1..], seen')[k - 1];
    }
  }

  /** Running the filter a second time changes nothing. */
  lemma DedupIdempotent(fs: seq<Family>)
    ensures Dedup(Dedup(fs)) == Dedup(fs)
  {
    var d := Dedup(fs);
    DedupSpec(fs);
    DedupFlatten(d, {});
    KeepUnique(Flatten(d), {});
    DedupUnchanged(d, {});
  }

  /** A family list whose records are already unique (and unseen) is left
      as it is. */
  lemma {:induction false} DedupUnchanged(fs: seq<Family>, seen: set<string>)
    requires UniqueNames(Flatten(fs)) && Names(Flatten(fs)) !! seen
    ensures DedupFrom(fs, seen) == fs
    decreases |fs|
  {
    if fs != [] {
      var a := fs[0].records;
      var b := Flatten(fs[1..]);
      assert Flatten(fs) == a + b;
      UniqueSplit(a, b);
      NamesOfConcat(a, b);
      assert Keep(a, seen) == a by {
        KeepUnique(a, seen);
      }
      assert DedupFrom(fs[1..], seen + Names(a)) == fs[1..] by {
        DedupUnchanged(fs[1..], seen + Names(a));
      }
      assert fs == [Family(fs[0].header, a)] + fs[1..];
    }
  }

  /** Both halves of a list with unique names have unique names, and
      share none. */
  lemma UniqueSplit(a: seq<Record>, b: seq<Record>)
    requires UniqueNames(a + b)
    ensures UniqueNames(a) && UniqueNames(b) && Names(a) !! Names(b)
  {
    assert UniqueNames(a) by {
      assert forall i :: 0 <= i < |a| ==> (a + b)[i] == a[i];
    }
    assert UniqueNames(b) by {
      assert forall i :: 0 <= i < |b| ==> (a + b)[|a| + i] == b[i];
    }
    forall i, j | 0 <= i < |a| && 0 <= j < |b|
      ensures a[i].name != b[j].name
    {
      assert (a + b)[i] == a[i] && (a + b)[|a| + j] == b[j];
    }
    forall n | n in Names(a)
      ensures n !in Names(b)
    {
      var x :| x in a && x.name == n;
      var i :| 0 <= i < |a| && a[i] == x;
      forall y | y in b
        ensures y.name != n
      {
        var j :| 0 <= j < |b| && b[j] == y;
      }
    }
  }
}

=== FILE: emit.dfy ===
/**
 * The header emitter of extract_msr.rb (lines 151-172): every family is
 * printed under a comment banner holding its header line, families are
 * separated by three blank lines, and a family prints one aligned
 * `#define NAME 0xXXXXXXXXU` line per constant, or a placeholder comment
 * when deduplication left it empty. The file ends with `#endif`.
 */
module Emit {
  import opened Types
  import opened Text
  import opened Extract
  import opened Duplicates

  /** The comment that opens a family: its header line without the line
      break. */
  function Banner(header: string): string {
    "/*\n * " + Chomp(header) + "\n */\n"
  }

  /** What an emptied family prints instead of definitions. */
  const AllDefinedAbove: string := "// All MSRs are already defined above\n"

  const Directive: string := "#define "

  /** The length of the longest name of a non-empty family: every name fits,
      and one name has exactly that length. */
  function LongestName(rs: seq<Record>): (n: nat)
    requires |rs| > 0
    ensures forall k :: 0 <= k < |rs| ==> |rs[k].name| <= n
    ensures exists k :: 0 <= k < |rs| && |rs[k].name| == n
  {
    if |rs| == 1 then |rs[0].name|
    else
      var m := LongestName(rs[1..]);
      assert forall k :: 1 <= k < |rs| ==> rs[k] == rs[1..][k - 1];
      if |rs[0].name| >= m then |rs[0].name| else m
  }

  /** One definition: the name padded to `width + 4` columns, then the
      address as "0x", at least eight lower-case hex digits and "U". The
      script repeats " " a negative number of times, an error, should a
      name be longer than that; its callers never let that happen. */
  function DefineLine(r: Record, width: nat): string
    requires |r.name| <= width + 4
  {
    Directive + r.name + Repeat(' ', width + 4 - |r.name|) + "0x" + Hex8(r.value) + "U\n"
  }

  /** The definitions of a family, one line per record, in order. */
  function Definitions(rs: seq<Record>, width: nat): (s: string)
    requires forall k :: 0 <= k < |rs| ==> |rs[k].name| <= width + 4
    ensures EndsLine(s)
  {
    if rs == [] then []
    else
      var line := DefineLine(rs[0], width);
      assert line[|line| - 1] == '\n';
      line + Definitions(rs[1..], width)
  }

  function RenderFamily(f: Family): (s: string)
    ensures |s| > 0 && EndsLine(s)
  {
    Banner(f.header) +
      if f.records == [] then AllDefinedAbove
      else Definitions(f.records, LongestName(f.records))
  }

  /** All families, with three blank lines between two neighbours. */
  function RenderFamilies(fs: seq<Family>): (s: string)
    ensures EndsLine(s)
  {
    if fs == [] then []
    else if |fs| == 1 then RenderFamily(fs[0])
    else RenderFamily(fs[0]) + "\n\n\n" + RenderFamilies(fs[1..])
  }

  /** The generated part of the header file: the families, then `#endif`. */
  function Render(fs: seq<Family>): string {
    RenderFamilies(fs) + EndIf
  }

  /** The line that closes the include guard. */
  const EndIf: string := "#endif\n"

  // ---------------------------------------------------------------------
  // Reading the definitions back

  /** The address part of a definition read back: "0x", hex digits, "U"
      and the line break. */
  function ParseAddress(t: string): (v: Option<nat>)
  {
    if |t| < 5 || t[..2] != "0x" || t[|t| - 2..] != "U\n" then None
    else
      var digits := t[2..|t| - 2];
      if IsHexString(digits) then Some(HexValue(digits)) else None
  }

  /** A `#define` line read back: the directive, a name, one or more blanks
      and the address part; None for any other line. */
  function ParseDefine(line: string): (r: Option<Record>)
    ensures r.Some? ==> StartsWith(line, Directive)
  {
    if !StartsWith(line, Directive) then None
    else
      var rest := line[|Directive|..];
      var n := Span(rest, NonBlank);
      var after := rest[n..];
      var b := Span(after, Blank);
      if n == 0 || b == 0 then None
      else
        match ParseAddress(after[b..])
        case Some(v) => Some(Record(rest[..n], v))
        case None => None
  }

  /** The values `f` yields for the elements of `s`, in order. */
  function FilterMap<T, U>(f: T -> Option<U>, s: seq<T>): seq<U> {
    if s == [] then []
    else
      (match f(s[0]) case Some(u) => [u] case None => []) + FilterMap(f, s[1..])
  }

  /** The records defined by a sequence of lines, in order. */
  function DefinedRecords(ls: seq<string>): seq<Record> {
    FilterMap(ParseDefine, ls)
  }

  /** The records a text defines: the `#define` lines among its lines. */
  function Defines(s: string): seq<Record> {
    DefinedRecords(Lines(s))
  }

  /** Name and digits of a definition line sit in fixed places: the name
      right after the directive, only spaces up to column `width + 12`, at
      least four of them when the name fits the width, and "0x" there. All
      lines of one family therefore align their addresses. */
  lemma DefineLineLayout(r: Record, width: nat)
    requires |r.name| <= width + 4
    ensures var line := DefineLine(r, width);
      && |line| == width + 16 + |Hex8(r.value)|
      && line[..8] == Directive
      && line[8..8 + |r.name|] == r.name
      && (forall i :: 8 + |r.name| <= i < width + 12 ==> line[i] == ' ')
      && line[width + 12..width + 14] == "0x"
      && line[width + 14..|line| - 2] == Hex8(r.value)
      && line[|line| - 2..] == "U\n"
  {
    var pad := Repeat(' ', width + 4 - |r.name|);
    Layout(DefineLine(r, width), r.name, pad, Hex8(r.value), width);
  }

  /** Where the parts of `#define <name><pad>0x<digits>U\n` sit when the
      padding fills the name up to `width + 4` columns. */
  lemma Layout(line: string, name: string, pad: string, h: string, width: nat)
    requires |name| + |pad| == width + 4
    requires forall i :: 0 <= i < |pad| ==> pad[i] == ' '
    requires line == Directive + name + pad + "0x" + h + "U\n"
    ensures && |line| == width + 16 + |h|
      && line[..8] == Directive
      && line[8..8 + |name|] == name
      && (forall i :: 8 + |name| <= i < width + 12 ==> line[i] == ' ')
      && line[width + 12..width + 14] == "0x"
      && line[width + 14..|line| - 2] == h
      && line[|line| - 2..] == "U\n"
  {
    forall i | 8 + |name| <= i < width + 12
      ensures line[i] == ' '
    {
      assert line[i] == pad[i - 8 - |name|];
    }
  }

  /** The `#define` line of a well-formed name reads back as its record. */
  lemma ParseDefineLine(r: Record, width: nat)
    requires WellNamed(r.name) && |r.name| <= width
    ensures ParseDefine(DefineLine(r, width)) == Some(r)
  {
    var pad := Repeat(' ', width + 4 - |r.name|);
    var t := "0x" + Hex8(r.value) + "U\n";
    assert All(r.name, NonBlank) by {
      forall i | 0 <= i < |r.name|
        ensures In(r.name[i], NonBlank)
      {
        assert r.name[i] in r.name;
      }
    }
    assert All(pad, Blank) && |pad| > 0;
    DefineLineParts(r.name, pad, Hex8(r.value));
    ParseDefineParts(DefineLine(r, width), r.name, pad, t);
    ParseAddressOf(r.value);
  }

  lemma DefineLineParts(name: string, pad: string, h: string)
    ensures Directive + name + pad + "0x" + h + "U\n" == Directive + (name + (pad + ("0x" + h + "U\n")))
  {
  }

  /** A line made of the directive, a word, blanks and an address part
      reads back as the word with the address part's value. */
  lemma ParseDefineParts(line: string, name: string, pad: string, t: string)
    requires |name| > 0 && All(name, NonBlank)
    requires |pad| > 0 && All(pad, Blank)
    requires |t| > 0 && t[0] == '0'
    requires line == Directive + (name + (pad + t))
    ensures ParseAddress(t).Some? ==> ParseDefine(line) == Some(Record(name, ParseAddress(t).value))
  {
    var rest := name + (pad + t);
    assert StartsWith(line, Directive) && line[|Directive|..] == rest;
    assert Span(rest, NonBlank) == |name| && rest[|name|..] == pad + t by {
      SpanOfConcat(name, pad + t, NonBlank);
    }
    assert rest[..|name|] == name;
    assert Span(pad + t, Blank) == |pad| && (pad + t)[|pad|..] == t by {
      SpanOfConcat(pad, t, Blank);
    }
  }

  /** The address part of a definition reads back as the value. */
  lemma ParseAddressOf(v: nat)
    ensures ParseAddress("0x" + Hex8(v) + "U\n") == Some(v)
  {
    var h := Hex8(v);
    var t := "0x" + h + "U\n";
    assert t[..2] == "0x" && t[|t| - 2..] == "U\n" && t[2..|t| - 2] == h;
  }

  /** A definition line is one line. */
  lemma DefineLineIsLine(r: Record, width: nat)
    requires WellNamed(r.name) && |r.name| <= width + 4
    ensures IsLine(DefineLine(r, width))
  {
    var line := DefineLine(r, width);
    var pad := Repeat(' ', width + 4 - |r.name|);
    var h := Hex8(r.value);
    assert line[..|line| - 1] == Directive + r.name + pad + "0x" + h + "U";
    assert '\n' !in pad;
    assert '\n' !in h by {
      assert forall i :: 0 <= i < |h| ==> IsHexChar(h[i]);
    }
  }

  /** Definitions distribute over a concatenation that splits at a line
      boundary. */
  lemma {:induction false} DefinesAppend(a: string, b: string)
    requires EndsLine(a)
    ensures Defines(a + b) == Defines(a) + Defines(b)
  {
    LinesAppend(a, b);
    FilterMapAppend(ParseDefine, Lines(a), Lines(b));
  }

  lemma {:induction false} FilterMapAppend<T, U>(f: T -> Option<U>, a: seq<T>, b: seq<T>)
    ensures FilterMap(f, a + b) == FilterMap(f, a) + FilterMap(f, b)
    decreases |a|
  {
    if a == [] {
      assert a + b == b;
    } else {
      assert (a + b)[0] == a[0] && (a + b)[1..] == a[1..] + b;
      FilterMapAppend(f, a[1..], b);
    }
  }

  /** A single line that is not a definition defines nothing. */
  lemma DefinesOfPlainLine(l: string)
    requires IsLine(l) && !StartsWith(l, Directive)
    ensures Defines(l) == []
  {
    LinesOfLine(l);
    assert ParseDefine(l) == None;
    assert DefinedRecords([l]) == DefinedRecords([l][1..]);
    assert [l][1..] == [];
  }

  /** A definition line defines its record. */
  lemma DefinesOfDefineLine(r: Record, width: nat)
    requires WellNamed(r.name) && |r.name| <= width
    ensures Defines(DefineLine(r, width)) == [r]
    ensures EndsLine(DefineLine(r, width))
  {
    var line := DefineLine(r, width);
    assert line[|line| - 1] == '\n';
    DefineLineIsLine(r, width);
    LinesOfLine(line);
    ParseDefineLine(r, width);
    assert DefinedRecords([line]) == [r] + DefinedRecords([line][1..]);
    assert [line][1..] == [];
  }

  /** The records of a family's definitions are the family's records. */
  lemma {:induction false} DefinesOfDefinitions(rs: seq<Record>, width: nat)
    requires WellNamedRecords(rs)
    requires forall k :: 0 <= k < |rs| ==> |rs[k].name| <= width
    ensures Defines(Definitions(rs, width)) == rs
    decreases |rs|
  {
    if rs == [] {
      assert Lines([]) == [];
    } else {
      assert WellNamedRecords(rs[1..]) by {
        assert forall k :: 0 <= k < |rs[1..]| ==> rs[1..][k] == rs[k + 1];
      }
      DefinesOfDefinitions(rs[1..], width);
      DefinitionsStep(rs, width);
    }
  }

  lemma DefinitionsStep(rs: seq<Record>, width: nat)
    requires |rs| > 0 && WellNamed(rs[0].name)
    requires forall k :: 0 <= k < |rs| ==> |rs[k].name| <= width
    requires Defines(Definitions(rs[1..], width)) == rs[1..]
    ensures Defines(Definitions(rs, width)) == rs
  {
    DefinesOfDefineLine(rs[0], width);
    DefinesCons(DefineLine(rs[0], width), Definitions(rs[1..], width), rs[0]);
    assert [rs[0]] + rs[1..] == rs;
  }

  /** A line defining one record, followed by more text. */
  lemma DefinesCons(line: string, more: string, r: Record)
    requires EndsLine(line) && Defines(line) == [r]
    ensures Defines(line + more) == [r] + Defines(more)
  {
    DefinesAppend(line, more);
  }

  /** A chomped line holds no line break. */
  lemma ChompOfLine(line: string)
    requires IsLine(line)
    ensures '\n' !in Chomp(line)
  {
    var c := Chomp(line);
    var body := line[..|line| - 1];
    if EndsWith(line, "\n") {
      assert |c| <= |body|;
      assert forall i :: 0 <= i < |c| ==> c[i] == body[i];
    } else {
      assert line[|line| - 1] != '\n';
      assert forall i :: 0 <= i < |c| ==> c[i] == line[i];
      assert forall i :: 0 <= i < |c| - 1 ==> c[i] == body[i];
    }
  }

  /** The three lines of a banner around a text without line breaks define
      nothing. */
  lemma DefinesOfComment(c: string)
    requires '\n' !in c
    ensures Defines("/*\n * " + c + "\n */\n") == []
  {
    var l1 := "/*\n";
    var l2 := " * " + c + "\n";
    var l3 := " */\n";
    assert "/*\n * " + c + "\n */\n" == l1 + (l2 + l3);
    assert IsLine(l2) && !StartsWith(l2, Directive) by {
      assert l2[..|l2| - 1] == " * " + c;
      assert '\n' !in " * ";
      assert l2[0] != Directive[0];
    }
    DefinesAppend(l1, l2 + l3);
    DefinesAppend(l2, l3);
    DefinesOfPlainLine(l1);
    DefinesOfPlainLine(l2);
    DefinesOfPlainLine(l3);
  }

  /** A banner defines nothing when its header is one line. */
  lemma DefinesOfBanner(header: string)
    requires IsLine(header)
    ensures Defines(Banner(header)) == []
  {
    ChompOfLine(header);
    DefinesOfComment(Chomp(header));
  }

  /** A rendered family defines exactly its records. */
  lemma DefinesOfFamily(f: Family)
    requires IsLine(f.header) && WellNamedRecords(f.records)
    ensures Defines(RenderFamily(f)) == f.records
  {
    var banner := Banner(f.header);
    var body := if f.records == [] then AllDefinedAbove else Definitions(f.records, LongestName(f.records));
    assert RenderFamily(f) == banner + body;
    assert Defines(banner + body) == Defines(banner) + Defines(body) by {
      assert EndsLine(banner);
      DefinesAppend(banner, body);
    }
    assert Defines(banner) == [] by {
      DefinesOfBanner(f.header);
    }
    assert Defines(body) == f.records by {
      if f.records == [] {
        DefinesOfPlaceholder();
      } else {
        DefinesOfDefinitions(f.records, LongestName(f.records));
      }
    }
  }

  /** The placeholder comment defines nothing. */
  lemma DefinesOfPlaceholder()
    ensures Defines(AllDefinedAbove) == []
  {
    var l := AllDefinedAbove;
    assert IsLine(l) && !StartsWith(l, Directive) by {
      assert forall i :: 0 <= i < |l| - 1 ==> l[i] != '\n';
      assert l[0] != Directive[0];
    }
    DefinesOfPlainLine(l);
  }

  /** The three blank lines between families define nothing. */
  lemma DefinesOfSeparator()
    ensures Defines("\n\n\n") == []
  {
    assert "\n\n\n" == "\n" + ("\n" + "\n");
    DefinesAppend("\n", "\n" + "\n");
    DefinesAppend("\n", "\n");
    DefinesOfPlainLine("\n");
  }

  /** Joining two texts with the separator adds no definitions. */
  lemma DefinesAroundSeparator(a: string, b: string)
    requires EndsLine(a)
    ensures Defines((a + "\n\n\n") + b) == Defines(a) + Defines(b)
  {
    var sep := "\n\n\n";
    assert EndsLine(a + sep);
    DefinesAppend(a + sep, b);
    DefinesAppend(a, sep);
    DefinesOfSeparator();
  }

  /** The `#define` lines of the generated header list exactly the records
      of all families, family by family and in order: nothing is added,
      lost, reordered or altered on the way out. */
  lemma {:induction false} DefinesOfRender(fs: seq<Family>)
    requires forall k :: 0 <= k < |fs| ==> IsLine(fs[k].header)
    requires WellNamedFamilies(fs)
    ensures Defines(Render(fs)) == Flatten(fs)
  {
    var body := RenderFamilies(fs);
    assert Defines(body + EndIf) == Defines(body) + Defines(EndIf) by {
      DefinesAppend(body, EndIf);
    }
    assert Defines(EndIf) == [] by {
      DefinesOfEndIf();
    }
    assert Defines(body) == Flatten(fs) by {
      DefinesOfFamilies(fs);
    }
    assert Flatten(fs) + [] == Flatten(fs);
  }

  /** The closing `#endif` defines nothing. */
  lemma DefinesOfEndIf()
    ensures Defines(EndIf) == []
  {
    var l := EndIf;
    assert IsLine(l) && !StartsWith(l, Directive) by {
      assert forall i :: 0 <= i < |l| - 1 ==> l[i] != '\n';
      assert l[1] != Directive[1];
    }
    DefinesOfPlainLine(l);
  }

  lemma {:induction false} DefinesOfFamilies(fs: seq<Family>)
    requires forall k :: 0 <= k < |fs| ==> IsLine(fs[k].header)
    requires WellNamedFamilies(fs)
    ensures Defines(RenderFamilies(fs)) == Flatten(fs)
    decreases |fs|
  {
    if fs == [] {
      assert Lines([]) == [];
    } else {
      DefinesOfFamily(fs[0]);
      if |fs| == 1 {
        DefinesOfLastFamily(fs);
      } else {
        FamiliesTail(fs);
        DefinesOfFamilies(fs[1..]);
        DefinesOfFamiliesStep(fs);
      }
    }
  }

  lemma DefinesOfLastFamily(fs: seq<Family>)
    requires |fs| == 1 && Defines(RenderFamily(fs[0])) == fs[0].records
    ensures Defines(RenderFamilies(fs)) == Flatten(fs)
  {
    assert Flatten(fs) == fs[0].records + Flatten(fs[1..]);
    assert fs[0].records + [] == fs[0].records;
  }

  lemma DefinesOfFamiliesStep(fs: seq<Family>)
    requires |fs| > 1
    requires Defines(RenderFamily(fs[0])) == fs[0].records
    requires Defines(RenderFamilies(fs[1..])) == Flatten(fs[1..])
    ensures Defines(RenderFamilies(fs)) == Flatten(fs)
  {
    DefinesAroundSeparator(RenderFamily(fs[0]), RenderFamilies(fs[1..]));
  }

  lemma FamiliesTail(fs: seq<Family>)
    requires fs != []
    requires forall k :: 0 <= k < |fs| ==> IsLine(fs[k].header)
    requires WellNamedFamilies(fs)
    ensures forall k :: 0 <= k < |fs[1..]| ==> IsLine(fs[1..][k].header)
    ensures WellNamedFamilies(fs[1..])
  {
    assert forall k :: 0 <= k < |fs[1..]| ==> fs[1..][k] == fs[k + 1];
  }

  /** A family prints the placeholder exactly when it has no records left. */
  lemma PlaceholderIffEmpty(f: Family)
    ensures EndsWith(RenderFamily(f), AllDefinedAbove) <==> f.records == []
  {
    if f.records == [] {
      PlaceholderWhenEmpty(f);
    } else {
      NoPlaceholderWhenFilled(f);
    }
  }

  lemma PlaceholderWhenEmpty(f: Family)
    requires f.records == []
    ensures EndsWith(RenderFamily(f), AllDefinedAbove)
  {
    var s := RenderFamily(f);
    var n := |AllDefinedAbove|;
    assert s == Banner(f.header) + AllDefinedAbove;
    assert s[|s| - n..] == AllDefinedAbove;
  }

  lemma NoPlaceholderWhenFilled(f: Family)
    requires f.records != []
    ensures !EndsWith(RenderFamily(f), AllDefinedAbove)
  {
    var b := Banner(f.header);
    var d := Definitions(f.records, LongestName(f.records));
    DefinitionsEndWithU(f.records, LongestName(f.records));
    NoPlaceholderAfterU(RenderFamily(f), b, d);
  }

  /** A text whose last character but one is 'U' does not end with the
      placeholder, which ends with "e\n". */
  lemma NoPlaceholderAfterU(s: string, b: string, d: string)
    requires s == b + d
    requires |d| >= 2 && d[|d| - 2] == 'U'
    ensures !EndsWith(s, AllDefinedAbove)
  {
    var n := |AllDefinedAbove|;
    assert s[|s| - 2] == 'U';
    assert AllDefinedAbove[n - 2] == 'e';
    if |s| >= n {
      assert s[|s| - n..][n - 2] == s[|s| - 2];
    }
  }

  /** The last definition line ends with "U\n". */
  lemma {:induction false} DefinitionsEndWithU(rs: seq<Record>, width: nat)
    requires |rs| > 0
    requires forall k :: 0 <= k < |rs| ==> |rs[k].name| <= width + 4
    ensures var d := Definitions(rs, width); |d| >= 2 && d[|d| - 2] == 'U'
    decreases |rs|
  {
    var line := DefineLine(rs[0], width);
    if |rs| > 1 {
      DefinitionsEndWithU(rs[1..], width);
    } else {
      assert Definitions(rs, width) == line + [];
    }
  }

  /** A definition line padded to `width`: its name followed by spaces up to
      column `width + 12`, at least four of them, with "0x" starting at
      that column. */
  predicate Aligned(line: string, name: string, width: nat) {
    && |name| <= width && width + 14 <= |line|
    && line[..8] == Directive
    && line[8..8 + |name|] == name
    && (forall i :: 8 + |name| <= i < width + 12 ==> line[i] == ' ')
    && line[width + 12..width + 14] == "0x"
  }

  /** The lines of a family with records: three banner lines, then one
      definition line per record, in order, all padded to `width`. */
  predicate AlignedFamily(ls: seq<string>, rs: seq<Record>, width: nat) {
    && |ls| == 3 + |rs|
    && forall k :: 0 <= k < |rs| ==> Aligned(ls[3..][k], rs[k].name, width)
  }

  /** The column of "0x" is fixed by the text: a family's lines are aligned
      at one width only. */
  lemma AlignedWidthUnique(ls: seq<string>, rs: seq<Record>, w1: nat, w2: nat)
    requires rs != [] && AlignedFamily(ls, rs, w1) && AlignedFamily(ls, rs, w2)
    ensures w1 == w2
  {
    var line, name := ls[3..][0], rs[0].name;
    assert Aligned(line, name, w1) && Aligned(line, name, w2);
    assert line[w1 + 12] == line[w1 + 12..w1 + 14][0] == '0';
    assert line[w2 + 12] == line[w2 + 12..w2 + 14][0] == '0';
  }

  /** Within a printed family the addresses align: after the banner, every
      line is the definition of the next record, its name followed by
      spaces up to the column set by the longest name, at least four of
      them, and "0x" starting at that column; the longest name is followed
      by exactly four. */
  lemma FamilyPadding(f: Family)
    requires IsLine(f.header) && WellNamedRecords(f.records) && f.records != []
    ensures AlignedFamily(Lines(RenderFamily(f)), f.records, LongestName(f.records))
    ensures exists k :: 0 <= k < |f.records| && |f.records[k].name| == LongestName(f.records)
  {
    FamilyLines(f);
    AllAligned(Lines(RenderFamily(f)), f.records, LongestName(f.records));
  }

  lemma AllAligned(ls: seq<string>, rs: seq<Record>, w: nat)
    requires |ls| == 3 + |rs|
    requires forall k :: 0 <= k < |rs| ==> |rs[k].name| <= w
    requires forall k :: 0 <= k < |rs| ==> ls[3 + k] == DefineLine(rs[k], w)
    ensures AlignedFamily(ls, rs, w)
  {
    forall k | 0 <= k < |rs|
      ensures Aligned(ls[3..][k], rs[k].name, w)
    {
      assert ls[3..][k] == ls[3 + k];
      LineAligned(ls[3 + k], rs[k], w);
    }
  }

  lemma LineAligned(line: string, r: Record, width: nat)
    requires |r.name| <= width && line == DefineLine(r, width)
    ensures Aligned(line, r.name, width)
  {
    DefineLineLayout(r, width);
  }

  /** The lines of a printed family with records: the three banner lines,
      then one definition line per record, in order, each padded to the
      family's longest name. */
  lemma FamilyLines(f: Family)
    requires IsLine(f.header) && WellNamedRecords(f.records) && f.records != []
    ensures var ls := Lines(RenderFamily(f));
      && |ls| == 3 + |f.records|
      && forall k :: 0 <= k < |f.records| ==> ls[3 + k] == DefineLine(f.records[k], LongestName(f.records))
  {
    var c := Chomp(f.header);
    ChompOfLine(f.header);
    var l1 := "/*\n";
    var l2 := " * " + c + "\n";
    var l3 := " */\n";
    var body := Definitions(f.records, LongestName(f.records));
    BannerSplit(f.header);
    CaptionLineIsLine(c);
    assert IsLine(l1) && IsLine(l3) by {
      assert l1[..|l1| - 1] == "/*" && l3[..|l3| - 1] == " */";
    }
    assert RenderFamily(f) == (l1 + (l2 + l3)) + body;
    LinesOfThree(RenderFamily(f), l1, l2, l3, body);
    DefinitionLines(f.records, LongestName(f.records));
  }

  /** The lines of a family's definitions are its definition lines. */
  lemma {:induction false} DefinitionLines(rs: seq<Record>, width: nat)
    requires WellNamedRecords(rs)
    requires forall k :: 0 <= k < |rs| ==> |rs[k].name| <= width
    ensures |Lines(Definitions(rs, width))| == |rs|
    ensures forall k :: 0 <= k < |rs| ==> Lines(Definitions(rs, width))[k] == DefineLine(rs[k], width)
    decreases |rs|
  {
    if rs == [] {
      assert Lines([]) == [];
    } else {
      assert WellNamedRecords(rs[1..]) by {
        assert forall k :: 0 <= k < |rs[1..]| ==> rs[1..][k] == rs[k + 1];
      }
      DefinitionLines(rs[1..], width);
      DefinitionLinesStep(rs, width);
    }
  }

  lemma DefinitionLinesStep(rs: seq<Record>, width: nat)
    requires |rs| > 0 && WellNamedRecords(rs)
    requires forall k :: 0 <= k < |rs| ==> |rs[k].name| <= width
    requires |Lines(Definitions(rs[1..], width))| == |rs| - 1
    requires forall k :: 0 <= k < |rs| - 1 ==> Lines(Definitions(rs[1..], width))[k] == DefineLine(rs[k + 1], width)
    ensures |Lines(Definitions(rs, width))| == |rs|
    ensures forall k :: 0 <= k < |rs| ==> Lines(Definitions(rs, width))[k] == DefineLine(rs[k], width)
  {
    var line := DefineLine(rs[0], width);
    var rest := Definitions(rs[1..], width);
    assert line[|line| - 1] == '\n';
    DefineLineIsLine(rs[0], width);
    assert Definitions(rs, width) == line + rest;
    LinesOfFront(line, rest);
    var ls := Lines(Definitions(rs, width));
    forall k | 0 <= k < |rs|
      ensures ls[k] == DefineLine(rs[k], width)
    {
      if k > 0 {
        assert ls[k] == Lines(rest)[k - 1];
      }
    }
  }

  // ---------------------------------------------------------------------
  // Banners and separators

  /** Families are joined by three blank lines: rendering a concatenation
      renders both parts and puts the separator between them. */
  lemma {:induction false} RenderFamiliesAppend(a: seq<Family>, b: seq<Family>)
    requires a != [] && b != []
    ensures RenderFamilies(a + b) == RenderFamilies(a) + "\n\n\n" + RenderFamilies(b)
    decreases |a|
  {
    var sep := "\n\n\n";
    assert |a + b| > 1 && (a + b)[0] == a[0] && (a + b)[1..] == a[1..] + b;
    var x := RenderFamily(a[0]);
    assert RenderFamilies(a + b) == x + sep + RenderFamilies(a[1..] + b);
    if |a| > 1 {
      RenderFamiliesAppend(a[1..], b);
      var y := RenderFamilies(a[1..]);
      var z := RenderFamilies(b);
      assert RenderFamilies(a) == x + sep + y;
      JoinAssoc(x, sep, y, z);
    } else {
      assert a[1..] + b == b;
      assert RenderFamilies(a) == x;
    }
  }

  lemma JoinAssoc(x: string, sep: string, y: string, z: string)
    ensures x + sep + (y + sep + z) == (x + sep + y) + sep + z
  {
  }

  /** The first three lines of a rendered family are its banner: the comment
      opening, " * " with the family's chomped header, and the closing. */
  lemma BannerLines(f: Family)
    requires IsLine(f.header)
    ensures var ls := Lines(RenderFamily(f));
      |ls| >= 3 && ls[..3] == ["/*\n", " * " + Chomp(f.header) + "\n", " */\n"]
  {
    var c := Chomp(f.header);
    ChompOfLine(f.header);
    var l1 := "/*\n";
    var l2 := " * " + c + "\n";
    var l3 := " */\n";
    var body := if f.records == [] then AllDefinedAbove else Definitions(f.records, LongestName(f.records));
    BannerSplit(f.header);
    CaptionLineIsLine(c);
    assert IsLine(l1) && IsLine(l3) by {
      assert l1[..|l1| - 1] == "/*" && l3[..|l3| - 1] == " */";
    }
    assert RenderFamily(f) == (l1 + (l2 + l3)) + body;
    LinesOfThree(RenderFamily(f), l1, l2, l3, body);
    assert ([l1, l2, l3] + Lines(body))[..3] == [l1, l2, l3];
  }

  /** A banner is three lines: the comment opening, " * " with the chomped
      header, and the comment closing. */
  lemma BannerSplit(header: string)
    ensures Banner(header) == "/*\n" + ((" * " + Chomp(header) + "\n") + " */\n")
  {
    var p: string := "/*\n * ";
    var q: string := "\n */\n";
    assert p == "/*\n" + " * ";
    assert q == "\n" + " */\n";
    SplitAssoc("/*\n", " * ", Chomp(header), "\n", " */\n");
  }

  lemma SplitAssoc(a: string, b: string, c: string, d: string, e: string)
    ensures (a + b) + c + (d + e) == a + ((b + c + d) + e)
  {
  }

  /** Three whole lines in front of a text are its first three lines. */
  lemma LinesOfThree(s: string, l1: string, l2: string, l3: string, body: string)
    requires s == (l1 + (l2 + l3)) + body
    requires IsLine(l1) && IsLine(l2) && IsLine(l3)
    requires EndsLine(l1) && EndsLine(l2) && EndsLine(l3)
    ensures Lines(s) == [l1, l2, l3] + Lines(body)
  {
    assert s == l1 + (l2 + (l3 + body));
    LinesOfFront(l1, l2 + (l3 + body));
    LinesOfFront(l2, l3 + body);
    LinesOfFront(l3, body);
    ConsThree(l1, l2, l3, Lines(body));
  }

  lemma ConsThree<T>(a: T, b: T, c: T, x: seq<T>)
    ensures [a] + ([b] + ([c] + x)) == [a, b, c] + x
  {
  }

  /** A whole line in front of a text is its first line. */
  lemma LinesOfFront(l: string, rest: string)
    requires IsLine(l) && EndsLine(l)
    ensures Lines(l + rest) == [l] + Lines(rest)
  {
    LinesAppend(l, rest);
    LinesOfLine(l);
  }

  /** The text of a banner line, which starts with " * ": what follows that
      mark, without the line break; None for any other line. */
  function ReadCaption(line: string): (r: Option<string>)
    ensures r.Some? <==> StartsWith(line, " * ")
    ensures r.Some? ==> line == " * " + r.value + "\n" || line == " * " + r.value
  {
    if !StartsWith(line, " * ") then None
    else if |line| > 3 && line[|line| - 1] == '\n' then Some(line[3..|line| - 1])
    else Some(line[3..])
  }

  /** The captions of a text: the texts of its banner lines, in order. */
  function Captions(s: string): seq<string> {
    FilterMap(ReadCaption, Lines(s))
  }

  /** The chomped headers of the families, in order. */
  function Headings(fs: seq<Family>): (hs: seq<string>)
    ensures |hs| == |fs|
    ensures forall k :: 0 <= k < |fs| ==> hs[k] == Chomp(fs[k].header)
  {
    if fs == [] then []
    else
      assert forall k :: 1 <= k < |fs| ==> fs[k] == fs[1..][k - 1];
      [Chomp(fs[0].header)] + Headings(fs[1..])
  }

  lemma {:induction false} CaptionsAppend(a: string, b: string)
    requires EndsLine(a)
    ensures Captions(a + b) == Captions(a) + Captions(b)
  {
    LinesAppend(a, b);
    FilterMapAppend(ReadCaption, Lines(a), Lines(b));
  }

  /** A single line that does not start with " * " holds no caption; it
      is enough that its first or third character is not a blank. */
  lemma CaptionsOfPlainLine(l: string)
    requires IsLine(l) && (l[0] != ' ' || (|l| > 2 && l[2] != ' '))
    ensures Captions(l) == []
  {
    LinesOfLine(l);
    assert !StartsWith(l, " * ") by {
      if |l| >= 3 {
        assert l[..3][0] == l[0] && l[..3][2] == l[2];
      }
    }
    assert ReadCaption(l) == None;
    assert FilterMap(ReadCaption, [l]) == FilterMap(ReadCaption, [l][1..]);
    assert [l][1..] == [];
  }

  lemma CaptionLineIsLine(c: string)
    requires '\n' !in c
    ensures IsLine(" * " + c + "\n")
  {
    var l: string := " * " + c + "\n";
    assert l[..|l| - 1] == " * " + c;
    assert '\n' !in " * ";
  }

  /** A banner line reads back as the text it was made from. */
  lemma CaptionsOfCaptionLine(c: string)
    requires '\n' !in c
    ensures Captions(" * " + c + "\n") == [c]
  {
    var l: string := " * " + c + "\n";
    CaptionLineIsLine(c);
    LinesOfLine(l);
    assert l[..3] == " * " && l[3..|l| - 1] == c;
    assert ReadCaption(l) == Some(c);
    assert FilterMap(ReadCaption, [l]) == [c] + FilterMap(ReadCaption, [l][1..]);
    assert [l][1..] == [];
  }

  /** A banner holds one caption: the header without its line break. */
  lemma CaptionsOfBanner(header: string)
    requires IsLine(header)
    ensures Captions(Banner(header)) == [Chomp(header)]
  {
    var c := Chomp(header);
    ChompOfLine(header);
    var l1 := "/*\n";
    var l2 := " * " + c + "\n";
    var l3 := " */\n";
    BannerSplit(header);
    CaptionsAppend(l1, l2 + l3);
    CaptionsAppend(l2, l3);
    CaptionsOfPlainLine(l1);
    CaptionsOfCaptionLine(c);
    CaptionsOfPlainLine(l3);
    assert Captions(l1) + ([c] + Captions(l3)) == [c];
  }

  /** Definition lines hold no caption. */
  lemma {:induction false} CaptionsOfDefinitions(rs: seq<Record>, width: nat)
    requires WellNamedRecords(rs)
    requires forall k :: 0 <= k < |rs| ==> |rs[k].name| <= width
    ensures Captions(Definitions(rs, width)) == []
    decreases |rs|
  {
    if rs == [] {
      assert Lines([]) == [];
    } else {
      assert WellNamedRecords(rs[1..]) by {
        assert forall k :: 0 <= k < |rs[1..]| ==> rs[1..][k] == rs[k + 1];
      }
      CaptionsOfDefinitions(rs[1..], width);
      var line := DefineLine(rs[0], width);
      assert line[|line| - 1] == '\n' && line[0] == '#';
      DefineLineIsLine(rs[0], width);
      CaptionsOfPlainLine(line);
      CaptionsAppend(line, Definitions(rs[1..], width));
    }
  }

  /** A rendered family holds one caption, its chomped header. */
  lemma CaptionsOfFamily(f: Family)
    requires IsLine(f.header) && WellNamedRecords(f.records)
    ensures Captions(RenderFamily(f)) == [Chomp(f.header)]
  {
    var banner := Banner(f.header);
    var body := if f.records == [] then AllDefinedAbove else Definitions(f.records, LongestName(f.records));
    assert RenderFamily(f) == banner + body;
    CaptionsAppend(banner, body);
    CaptionsOfBanner(f.header);
    assert Captions(body) == [] by {
      if f.records == [] {
        PlaceholderLine();
        CaptionsOfPlainLine(AllDefinedAbove);
      } else {
        CaptionsOfDefinitions(f.records, LongestName(f.records));
      }
    }
    assert [Chomp(f.header)] + [] == [Chomp(f.header)];
  }

  lemma {:induction false} CaptionsOfFamilies(fs: seq<Family>)
    requires forall k :: 0 <= k < |fs| ==> IsLine(fs[k].header)
    requires WellNamedFamilies(fs)
    ensures Captions(RenderFamilies(fs)) == Headings(fs)
    decreases |fs|
  {
    if fs == [] {
      assert Lines([]) == [];
    } else {
      CaptionsOfFamily(fs[0]);
      if |fs| == 1 {
        assert Headings(fs) == [Chomp(fs[0].header)] + [];
      } else {
        FamiliesTail(fs);
        CaptionsOfFamilies(fs[1..]);
        CaptionsOfFamiliesStep(fs);
      }
    }
  }

  lemma CaptionsOfFamiliesStep(fs: seq<Family>)
    requires |fs| > 1
    requires Captions(RenderFamily(fs[0])) == [Chomp(fs[0].header)]
    requires Captions(RenderFamilies(fs[1..])) == Headings(fs[1..])
    ensures Captions(RenderFamilies(fs)) == Headings(fs)
  {
    assert RenderFamilies(fs) == (RenderFamily(fs[0]) + "\n\n\n") + RenderFamilies(fs[1..]);
    assert Headings(fs) == [Chomp(fs[0].header)] + Headings(fs[1..]);
    CaptionsAroundSeparator(RenderFamily(fs[0]), RenderFamilies(fs[1..]), Chomp(fs[0].header), Headings(fs[1..]));
  }

  /** Joining two texts with the separator adds no caption. */
  lemma CaptionsAroundSeparator(a: string, b: string, c: string, hs: seq<string>)
    requires EndsLine(a) && Captions(a) == [c] && Captions(b) == hs
    ensures Captions((a + "\n\n\n") + b) == [c] + hs
  {
    var sep := "\n\n\n";
    assert EndsLine(a + sep);
    CaptionsAppend(a + sep, b);
    CaptionsAppend(a, sep);
    CaptionsOfSeparator();
    assert [c] + [] == [c];
  }

  /** The three blank lines between families hold no caption. */
  lemma CaptionsOfSeparator()
    ensures Captions("\n\n\n") == []
  {
    assert "\n\n\n" == "\n" + ("\n" + "\n");
    CaptionsAppend("\n", "\n" + "\n");
    CaptionsAppend("\n", "\n");
    CaptionsOfPlainLine("\n");
  }

  /** The placeholder and the closing `#endif` are single lines that start
      with no blank. */
  lemma PlaceholderLine()
    ensures IsLine(AllDefinedAbove) && AllDefinedAbove[0] == '/'
  {
    var l := AllDefinedAbove;
    assert forall i :: 0 <= i < |l| - 1 ==> l[i] != '\n';
  }

  lemma EndIfLine()
    ensures IsLine(EndIf) && EndIf[0] == '#'
  {
    var l := EndIf;
    assert forall i :: 0 <= i < |l| - 1 ==> l[i] != '\n';
  }

  /** The banner lines of the generated header carry the families' headers,
      without their line breaks, one per family and in family order; no
      other line of the output reads as a banner line. */
  lemma CaptionsOfRender(fs: seq<Family>)
    requires forall k :: 0 <= k < |fs| ==> IsLine(fs[k].header)
    requires WellNamedFamilies(fs)
    ensures var c := Captions(Render(fs));
      |c| == |fs| && forall k :: 0 <= k < |fs| ==> c[k] == Chomp(fs[k].header)
  {
    var body := RenderFamilies(fs);
    CaptionsAppend(body, EndIf);
    CaptionsOfFamilies(fs);
    assert Captions(EndIf) == [] by {
      EndIfLine();
      CaptionsOfPlainLine(EndIf);
    }
    assert Headings(fs) + [] == Headings(fs);
  }
}

=== FILE: extract.dfy ===
/**
 * The per-group record extraction of extract_msr.rb (lines 63-101): the
 * group's text is cut into tokens, the register name is picked from the
 * right column, garbage is skipped, known extraction artefacts are trimmed,
 * the name is given the "MSR_" prefix and cleaned of line breaks and
 * parenthesised notes, and the hex address in token 0 is parsed.
 */
module Extract {
  import opened Types
  import opened Text
  import opened Grouping

  /** One extracted constant: its name and its address. */
  datatype Record = Record(name: string, value: nat)

  /** A family of extracted constants, under the header line that opened it. */
  datatype Family = Family(header: string, records: seq<Record>)

  // ---------------------------------------------------------------------
  // Choosing the name column (lines 67-75)

  /** `s =~ /^\d+$/`. In Ruby `^` and `$` are line anchors, so the match
      succeeds when any one line of `s` is a non-empty run of digits. */
  predicate HasDigitLine(s: string)
    decreases |s|
  {
    var k := Find(s, '\n');
    (k > 0 && All(s[..k], Digit)) || (k < |s| && HasDigitLine(s[k + 1..]))
  }

  /** On a single line the test is the plain "all decimal digits" check. */
  lemma DigitLineSingle(s: string)
    requires '\n' !in s
    ensures HasDigitLine(s) <==> |s| > 0 && All(s, Digit)
  {
    assert s[..|s|] == s;
    FindAt(s, '\n', |s|);
  }

  /** A token that runs over a line break counts as a decimal cell as soon as
      its first line is all digits, whatever follows on the next line. */
  lemma DigitLineFirst(a: string, b: string)
    requires |a| > 0 && All(a, Digit)
    ensures HasDigitLine(a + "\n" + b)
  {
    var s := a + "\n" + b;
    assert forall i :: 0 <= i < |a| ==> a[i] != '\n' by {
      assert forall i :: 0 <= i < |a| ==> In(a[i], Digit);
    }
    assert s[..|a|] == a && s[|a|] == '\n';
    FindAt(s, '\n', |a|);
  }

  /** The test looks at every line: a text made of a first line `a` and,
      after the line break, the rest `b` passes exactly when `a` is all
      digits or some line of `b` is. */
  lemma DigitLineSplit(a: string, b: string)
    requires '\n' !in a
    ensures HasDigitLine(a + "\n" + b) <==> (|a| > 0 && All(a, Digit)) || HasDigitLine(b)
  {
    var s := a + "\n" + b;
    assert s[..|a|] == a && s[|a|] == '\n';
    FindAt(s, '\n', |a|);
    assert s[|a| + 1..] == b;
  }

  /** Which token holds the register name: token 2 when token 1 is the
      "Decimal" address column (after `chomp`), otherwise token 1. */
  function NameColumn(tokens: seq<string>): (col: nat)
    requires |tokens| >= 2
    ensures col == 1 || col == 2
  {
    if HasDigitLine(Chomp(tokens[1])) then 2 else 1
  }

  /** The name token of a group's text, or None when that token is missing,
      which makes the script call a method on nil. The name is token 2 when
      some line of the chomped token 1 is all digits, otherwise token 1. */
  function NameToken(text: string): (t: Option<string>)
    ensures t.Some? ==> All(t.value, NonBlank)
    ensures t.Some? ==> exists k :: 1 <= k < |Split(text)| && Split(text)[k] == t.value
    ensures |Split(text)| < 2 ==> t.None?
    ensures |Split(text)| >= 2 && HasDigitLine(Chomp(Split(text)[1])) ==>
              t == if |Split(text)| >= 3 then Some(Split(text)[2]) else None
    ensures |Split(text)| >= 2 && !HasDigitLine(Chomp(Split(text)[1])) ==> t == Some(Split(text)[1])
  {
    var tokens := Split(text);
    if |tokens| < 2 then None
    else
      var col := NameColumn(tokens);
      if col < |tokens| then Some(tokens[col]) else None
  }

  /** The usual record line: address, decimal address, name and then the
      description. The name is the third token. */
  lemma NameTokenWithDecimal(addr: string, dec: string, name: string, rest: string)
    requires |addr| > 0 && All(addr, UpperHex)
    requires |dec| > 0 && All(dec, Digit)
    requires |name| > 0 && All(name, NonBlank)
    requires rest == [] || In(rest[0], Blank)
    ensures NameToken(addr + "H " + dec + " " + name + rest) == Some(name)
  {
    var text := addr + "H " + dec + " " + name + rest;
    var t2 := " " + name + rest;
    var t1 := " " + dec + t2;
    RegroupDecimal(addr, dec, name, rest);
    AddressWord(addr);
    SplitFirstWordAt(text, addr + "H", t1);
    DigitsAreWord(dec);
    WordsAfterBlankAt(t2, name, rest);
    WordsAfterBlankAt(t1, dec, t2);
    DigitColumn(dec);
    NameTokenThird(text, addr + "H", dec, name, Words(rest));
  }

  lemma RegroupDecimal(addr: string, dec: string, name: string, rest: string)
    ensures addr + "H " + dec + " " + name + rest == (addr + "H") + (" " + dec + (" " + name + rest))
    ensures (" " + name + rest)[0] == ' '
    ensures (" " + dec + (" " + name + rest))[0] == ' '
  {
    assert "H " == "H" + " ";
  }

  /** A decimal address passes the digit-line test. */
  lemma DigitColumn(dec: string)
    requires |dec| > 0 && All(dec, Digit)
    ensures HasDigitLine(Chomp(dec))
  {
    assert Chomp(dec) == dec by {
      assert dec[|dec| - 1] != '\n' && dec[|dec| - 1] != '\r' by {
        assert In(dec[|dec| - 1], Digit);
      }
    }
    assert '\n' !in dec by {
      assert forall i :: 0 <= i < |dec| ==> In(dec[i], Digit);
    }
    DigitLineSingle(dec);
  }

  /** After a decimal column the name is the third token. */
  lemma NameTokenThird(text: string, w: string, dec: string, name: string, more: seq<string>)
    requires Split(text) == [w] + ([dec] + ([name] + more))
    requires HasDigitLine(Chomp(dec))
    ensures NameToken(text) == Some(name)
  {
    ThirdToken(Split(text), w, dec, name, more);
  }

  lemma ThirdToken(tokens: seq<string>, w: string, dec: string, name: string, more: seq<string>)
    requires tokens == [w] + ([dec] + ([name] + more))
    ensures |tokens| >= 3 && tokens[1] == dec && tokens[2] == name
  {
    assert tokens == [w, dec, name] + more;
  }

  /** A record line whose decimal column is empty: the name is the second
      token, provided no line of it is all digits. */
  lemma NameTokenWithoutDecimal(addr: string, name: string, rest: string)
    requires |addr| > 0 && All(addr, UpperHex)
    requires |name| > 0 && All(name, NonBlank) && !HasDigitLine(Chomp(name))
    requires rest == [] || In(rest[0], Blank)
    ensures NameToken(addr + "H " + name + rest) == Some(name)
  {
    var text := addr + "H " + name + rest;
    var t1 := " " + name + rest;
    RegroupAddress(addr, name, rest);
    AddressWord(addr);
    SplitFirstWordAt(text, addr + "H", t1);
    WordsAfterBlankAt(t1, name, rest);
    NameTokenSecond(text, addr + "H", name, Words(rest));
  }

  lemma RegroupAddress(addr: string, name: string, rest: string)
    ensures addr + "H " + name + rest == (addr + "H") + (" " + name + rest)
    ensures (" " + name + rest)[0] == ' '
  {
    assert "H " == "H" + " ";
  }

  /** The text splits into its first word and the words after it:
      `Text.SplitFirstWord` for a text given as a parameter equal to the
      concatenation, which keeps the callers' proofs small. */
  lemma SplitFirstWordAt(s: string, w: string, rest: string)
    requires |w| > 0 && All(w, NonBlank)
    requires |rest| > 0 && In(rest[0], Blank)
    requires s == w + rest
    ensures Split(s) == [w] + Words(rest)
  {
    SplitFirstWord(w, rest);
  }

  /** A name in the second column is the name token unless one of its
      lines is all digits. */
  lemma NameTokenSecond(text: string, w: string, name: string, more: seq<string>)
    requires Split(text) == [w] + ([name] + more)
    requires !HasDigitLine(Chomp(name))
    ensures NameToken(text) == Some(name)
  {
    SecondToken(Split(text), w, name, more);
  }

  lemma SecondToken(tokens: seq<string>, w: string, name: string, more: seq<string>)
    requires tokens == [w] + ([name] + more)
    ensures |tokens| >= 2 && tokens[1] == name
  {
    assert tokens == [w, name] + more;
  }

  /** The address token is a word. */
  lemma AddressWord(addr: string)
    requires All(addr, UpperHex)
    ensures |addr + "H"| > 0 && All(addr + "H", NonBlank)
  {
    var w := addr + "H";
    forall i | 0 <= i < |w|
      ensures In(w[i], NonBlank)
    {
      if i < |addr| {
        assert In(addr[i], UpperHex);
      }
    }
  }

  lemma RegroupTail(addr: string, dec: string, name: string, rest: string)
    ensures addr + "H " + dec + " " + name + rest == addr + "H " + (dec + " " + name + rest)
  {
  }

  /** A blank and then a word. The text is a parameter equal to the
      concatenation, rather than the concatenation itself, so that callers
      do not have the solver re-derive the concatenation's structure. */
  lemma WordsAfterBlankAt(s: string, w: string, rest: string)
    requires |w| > 0 && All(w, NonBlank)
    requires rest == [] || In(rest[0], Blank)
    requires s == " " + w + rest
    ensures Words(s) == [w] + Words(rest)
  {
    assert s[1..] == w + rest;
    WordsOfWord(w, rest);
  }

  lemma DigitsAreWord(dec: string)
    requires All(dec, Digit)
    ensures All(dec, NonBlank)
  {
    forall i | 0 <= i < |dec|
      ensures In(dec[i], NonBlank)
    {
      assert In(dec[i], Digit);
    }
  }

  // ---------------------------------------------------------------------
  // Garbage and artefacts (lines 76-87)

  /** Fragments of prose caught as a record: a name with ':' or '-', or the
      words "Reserved" and "and". */
  predicate IsGarbage(name: string) {
    ':' in name || '-' in name || name == "Reserved" || name == "and"
  }

  /** Three names that pick up a stray trailing character in the manual. */
  const Misprinted: set<string> := {"BBL_CR_CTL30", "IA32_MCG_STATUS0", "DEBUGCTLMSR0"}

  /** /MC\d*_ADDR\d/ matching at the first character of `s`. */
  predicate McAddrAt(s: string) {
    && |s| >= 2 && s[0] == 'M' && s[1] == 'C'
    && var d := Span(s[2..], Digit);
       var t := s[2 + d..];
       |t| >= 6 && t[..5] == "_ADDR" && In(t[5], Digit)
  }

  /** /MC\d*_ADDR\d/ matching anywhere in `s`. */
  predicate HasMcAddr(s: string) {
    exists k :: 0 <= k < |s| && McAddrAt(s[k..])
  }

  lemma McAddrLength(s: string)
    requires HasMcAddr(s)
    ensures |s| >= 8
  {
  }

  /** The artefact clean-up, three exclusive cases tried in order: a
      trailing "Table" goes, else a misprinted name or an MC*_ADDR name
      loses its last character, else the name is kept. Only characters at
      the end are removed. */
  function TrimSuffix(name: string): (r: string)
    ensures |r| <= |name| && name[..|r|] == r
    ensures EndsWith(name, "Table") ==> |r| == |name| - 5
    ensures !EndsWith(name, "Table") && (name in Misprinted || HasMcAddr(name)) ==> |r| == |name| - 1
    ensures !EndsWith(name, "Table") && name !in Misprinted && !HasMcAddr(name) ==> r == name
  {
    if EndsWith(name, "Table") then name[..|name| - 5]
    else if name in Misprinted then name[..|name| - 1]
    else if HasMcAddr(name) then
      McAddrLength(name);
      name[..|name| - 1]
    else name
  }

  /** The clean-up runs before line breaks are removed: a token that ends
      in "Table" and then a line break keeps its "Table". */
  lemma TableBeforeLineBreakKept(x: string)
    requires !HasMcAddr(x + "Table\n")
    ensures TrimSuffix(x + "Table\n") == x + "Table\n"
  {
    var name := x + "Table\n";
    assert name[|name| - 1] == '\n';
    assert !EndsWith(name, "Table") by {
      if |name| >= 5 {
        assert name[|name| - 5..][4] == name[|name| - 1];
      }
    }
    assert name !in Misprinted by {
      forall m | m in Misprinted
        ensures m != name
      {
        assert m[|m| - 1] != '\n';
      }
    }
  }

  // ---------------------------------------------------------------------
  // The naming convention (lines 89-92)

  const Prefix: string := "MSR_"

  /** Prepends "MSR_" unless the name already begins with it. */
  function AddPrefix(name: string): (r: string)
    ensures StartsWith(r, Prefix)
    ensures StartsWith(name, Prefix) ==> r == name
    ensures !StartsWith(name, Prefix) ==> r == Prefix + name
  {
    if StartsWith(name, Prefix) then name else Prefix + name
  }

  /** The prefix is never doubled: adding it twice is adding it once. */
  lemma AddPrefixIdempotent(name: string)
    ensures AddPrefix(AddPrefix(name)) == AddPrefix(name)
  {
  }

  /** `gsub(/(\n|\(.*$)/, "")`: every '\n' is dropped, and so is every '('
      together with the rest of its line (`.` stops at '\n'). */
  function StripNotes(s: string): (r: string)
    ensures '\n' !in r && '(' !in r
    ensures forall c :: c in r ==> c in s
    ensures |r| <= |s|
    decreases |s|
  {
    if s == [] then []
    else if s[0] == '\n' then StripNotes(s[1..])
    else if s[0] == '(' then
      var k := Find(s, '\n');
      assert k > 0 by {
        assert s[0] != '\n';
      }
      StripNotes(s[k..])
    else
      var t := StripNotes(s[1..]);
      assert forall c :: c in t ==> c in s by {
        assert forall c :: c in s[1..] ==> c in s;
      }
      [s[0]] + t
  }

  /** Text with neither a line break nor a '(' passes through unchanged. */
  lemma {:induction false} StripNotesKeepsPlain(a: string, s: string)
    requires '\n' !in a && '(' !in a
    ensures StripNotes(a + s) == a + StripNotes(s)
    decreases |a|
  {
    if a != [] {
      assert a[0] in a;
      assert '\n' !in a[1..] && '(' !in a[1..] by {
        assert forall c :: c in a[1..] ==> c in a;
      }
      var t := a + s;
      assert t[0] == a[0] && t[1..] == a[1..] + s;
      assert StripNotes(t) == [a[0]] + StripNotes(a[1..] + s);
      StripNotesKeepsPlain(a[1..], s);
      var x := StripNotes(s);
      assert [a[0]] + (a[1..] + x) == ([a[0]] + a[1..]) + x;
      assert [a[0]] + a[1..] == a;
    } else {
      assert a + s == s;
    }
  }

  /** A '(' takes the rest of its line with it, up to the line break. */
  lemma StripNotesDropsNote(x: string, s: string)
    requires '\n' !in x
    requires s == [] || s[0] == '\n'
    ensures StripNotes("(" + x + s) == StripNotes(s)
  {
    var t := "(" + x + s;
    assert t[..|x| + 1] == "(" + x;
    FindAt(t, '\n', |x| + 1);
    assert t[|x| + 1..] == s;
  }

  /** A name broken over two lines is joined back together. */
  lemma StripNotesJoinsLines(a: string, b: string)
    requires '\n' !in a && '(' !in a && '\n' !in b && '(' !in b
    ensures StripNotes(a + "\n" + b) == a + b
  {
    StripNotesKeepsPlain(a, "\n" + b);
    assert ("\n" + b)[1..] == b;
    StripNotesKeepsPlain(b, []);
    assert b + [] == b;
    assert a + "\n" + b == a + ("\n" + b);
  }

  /** A final constant name: prefixed, on one line, without a note, and
      without blanks. */
  predicate WellNamed(name: string) {
    StartsWith(name, Prefix) && '\n' !in name && '(' !in name && ' ' !in name && '\t' !in name
  }

  /** The naming convention: prefix, then clean-up. The result is always
      a well-formed constant name. */
  function Normalize(name: string): (r: string)
    requires ' ' !in name && '\t' !in name
    ensures WellNamed(r)
  {
    var p := AddPrefix(name);
    assert p == Prefix + p[4..];
    StripNotesKeepsPlain(Prefix, p[4..]);
    StripNotes(p)
  }

  /** A name on one line without a note is only given the prefix: a name
      already starting with "MSR_" is kept as it is, any other gets "MSR_"
      in front. */
  lemma NormalizePlain(name: string)
    requires ' ' !in name && '\t' !in name && '\n' !in name && '(' !in name
    ensures StartsWith(name, Prefix) ==> Normalize(name) == name
    ensures !StartsWith(name, Prefix) ==> Normalize(name) == Prefix + name
  {
    var p := AddPrefix(name);
    assert '\n' !in p && '(' !in p by {
      if !StartsWith(name, Prefix) {
        assert p == Prefix + name;
        assert '\n' !in Prefix && '(' !in Prefix;
      }
    }
    StripNotesKeepsPlain(p, []);
    assert p + [] == p;
  }

  /** The prefix test looks at the token before its line breaks are
      removed, so a token that starts with a line break and then "MSR_"
      ends up with the prefix twice. */
  lemma NormalizeCanDoublePrefix(rest: string)
    requires ' ' !in rest && '\t' !in rest && '\n' !in rest && '(' !in rest
    ensures Normalize("\n" + Prefix + rest) == Prefix + Prefix + rest
  {
    var name := "\n" + Prefix + rest;
    assert !StartsWith(name, Prefix) by {
      assert name[0] != Prefix[0];
    }
    assert AddPrefix(name) == Prefix + name;
    assert '\n' !in Prefix && '(' !in Prefix;
    StripNotesKeepsPlain(Prefix, name);
    assert name[0] == '\n' && name[1..] == Prefix + rest;
    assert StripNotes(name) == StripNotes(Prefix + rest);
    StripNotesKeepsPlain(Prefix + rest, []);
    assert Prefix + rest + [] == Prefix + rest;
  }

  // ---------------------------------------------------------------------
  // The address (lines 94-95)

  /** The hex digits at the start of a record line. */
  function AddressDigits(text: string): (d: string)
    requires IsRecordStart(text)
    ensures |d| > 0 && All(d, UpperHex) && IsHexString(d)
  {
    text[..Span(text, UpperHex)]
  }

  /** Token 0 of a record's text is its hex address followed by 'H'. */
  lemma LeadToken(text: string)
    requires IsRecordStart(text)
    ensures |Split(text)| >= 1
    ensures Split(text)[0] == AddressDigits(text) + "H"
  {
    var n := Span(text, UpperHex);
    var w := text[..n + 1];
    assert w == AddressDigits(text) + "H";
    assert All(w, NonBlank) by {
      assert forall i :: 0 <= i < n ==> In(text[..n][i], UpperHex);
    }
    assert text == w + text[n + 1..];
    SplitFirstWord(w, text[n + 1..]);
  }

  /** `split[0][0..-2].to_i(16)`: token 0 without its last character, read
      as a base-16 number. */
  function AddressValue(text: string): (v: nat)
    requires IsRecordStart(text)
    ensures v == HexValue(AddressDigits(text))
  {
    LeadToken(text);
    var t := Split(text)[0];
    assert t[..|t| - 1] == AddressDigits(text);
    HexValue(t[..|t| - 1])
  }

  // ---------------------------------------------------------------------
  // One group

  /** The record of one group: a fault when the name token is missing,
      nothing for a garbage name, and otherwise the normalised name with
      the address value. */
  function ExtractRecord(text: string): (r: Result<Option<Record>>)
    requires IsRecordStart(text)
    ensures r.Err? <==> NameToken(text).None?
    ensures r == Ok(None) <==> NameToken(text).Some? && IsGarbage(NameToken(text).value)
    ensures r.Ok? && r.value.Some? ==>
              && WellNamed(r.value.value.name)
              && r.value.value.name == Normalize(TrimSuffix(NameToken(text).value))
              && r.value.value.value == HexValue(AddressDigits(text))
  {
    match NameToken(text)
    case None => Err(MissingName(text))
    case Some(name) =>
      if IsGarbage(name) then Ok(None)
      else
        var trimmed := TrimSuffix(name);
        assert ' ' !in trimmed && '\t' !in trimmed by {
          assert forall c :: c in trimmed ==> c in name;
          assert ' ' !in name && '\t' !in name by {
            assert forall i :: 0 <= i < |name| ==> In(name[i], NonBlank);
          }
        }
        Ok(Some(Record(Normalize(trimmed), AddressValue(text))))
  }

  /** The start of a record line: the address, 'H' and a space. */
  lemma RecordLineStart(addr: string, more: string)
    requires |addr| > 0 && All(addr, UpperHex)
    ensures IsRecordStart(addr + "H " + more)
    ensures AddressDigits(addr + "H " + more) == addr
  {
    var text := addr + "H " + more;
    assert text == addr + ("H " + more);
    SpanOfConcat(addr, "H " + more, UpperHex);
    assert text[..|addr|] == addr;
  }

  /** A name that none of the clean-up rules touches. */
  predicate PlainName(name: string) {
    && |name| > 0 && All(name, NonBlank) && '\n' !in name && '(' !in name
    && !IsGarbage(name) && !EndsWith(name, "Table") && name !in Misprinted && !HasMcAddr(name)
  }

  /** A record whose name token is plain is the prefixed token with the
      value of the address. */
  lemma ExtractPlainRecord(text: string, name: string)
    requires IsRecordStart(text)
    requires NameToken(text) == Some(name) && PlainName(name)
    ensures ExtractRecord(text) == Ok(Some(Record(AddPrefix(name), HexValue(AddressDigits(text)))))
  {
    assert TrimSuffix(name) == name;
    assert ' ' !in name && '\t' !in name by {
      assert forall i :: 0 <= i < |name| ==> In(name[i], NonBlank);
    }
    NormalizePlain(name);
  }

  /** The usual record: a line "<addr>H <decimal> <name> ..." defines the
      prefixed name with the address's value. */
  lemma ExtractUsualRecord(addr: string, dec: string, name: string, rest: string)
    requires |addr| > 0 && All(addr, UpperHex)
    requires |dec| > 0 && All(dec, Digit)
    requires PlainName(name)
    requires rest == [] || In(rest[0], Blank)
    ensures IsRecordStart(addr + "H " + dec + " " + name + rest)
    ensures ExtractRecord(addr + "H " + dec + " " + name + rest) == Ok(Some(Record(AddPrefix(name), HexValue(addr))))
  {
    var text := addr + "H " + dec + " " + name + rest;
    RegroupTail(addr, dec, name, rest);
    RecordLineStart(addr, dec + " " + name + rest);
    NameTokenWithDecimal(addr, dec, name, rest);
    ExtractPlainRecord(text, name);
  }

  /** Text free of the characters the clean-up reacts to: no line break,
      no note, and nothing that marks garbage. */
  predicate Clean(x: string) {
    '\n' !in x && '(' !in x && ':' !in x && '-' !in x
  }

  /** A group whose name token is not garbage yields its cleaned-up token
      with the address's value. */
  lemma ExtractRecordOf(text: string, tok: string)
    requires IsRecordStart(text)
    requires NameToken(text) == Some(tok) && !IsGarbage(tok)
    ensures ' ' !in TrimSuffix(tok) && '\t' !in TrimSuffix(tok)
    ensures ExtractRecord(text) == Ok(Some(Record(Normalize(TrimSuffix(tok)), HexValue(AddressDigits(text)))))
  {
    TrimmedWord(tok);
    var r := ExtractRecord(text);
    assert r.Ok? && r.value.Some?;
    assert r.value.value == Record(Normalize(TrimSuffix(tok)), HexValue(AddressDigits(text)));
  }

  /** Trimming a blank-free token leaves it blank-free. */
  lemma TrimmedWord(tok: string)
    requires All(tok, NonBlank)
    ensures ' ' !in TrimSuffix(tok) && '\t' !in TrimSuffix(tok)
  {
    var t := TrimSuffix(tok);
    assert forall i :: 0 <= i < |t| ==> t[i] == tok[i] && In(tok[i], NonBlank);
  }

  /** A name token `<x>Table` is the constant `MSR_<x>`: the "Table" a
      run-on caption left behind is cut off. */
  lemma ExtractTableRecord(text: string, x: string)
    requires IsRecordStart(text)
    requires NameToken(text) == Some(x + "Table") && Clean(x)
    ensures ExtractRecord(text) == Ok(Some(Record(AddPrefix(x), HexValue(AddressDigits(text)))))
  {
    TableToken(x + "Table", x);
    ExtractRecordOf(text, x + "Table");
  }

  lemma TableToken(tok: string, x: string)
    requires tok == x + "Table" && Clean(x) && All(tok, NonBlank)
    ensures !IsGarbage(tok) && TrimSuffix(tok) == x && ' ' !in x && '\t' !in x
    ensures Normalize(x) == AddPrefix(x)
  {
    assert ' ' !in x && '\t' !in x by {
      assert forall i :: 0 <= i < |x| ==> x[i] == tok[i] && In(tok[i], NonBlank);
    }
    assert !IsGarbage(tok) by {
      assert forall c :: c in tok ==> c in x || c in "Table";
      assert tok[|tok| - 1] == 'e';
    }
    assert EndsWith(tok, "Table") && tok[..|tok| - 5] == x;
    NormalizePlain(x);
  }

  /** The three misprinted names lose their stray last character. */
  lemma ExtractMisprintedRecord(text: string, m: string)
    requires IsRecordStart(text)
    requires NameToken(text) == Some(m) && m in Misprinted
    ensures ExtractRecord(text) == Ok(Some(Record(Prefix + m[..|m| - 1], HexValue(AddressDigits(text)))))
  {
    MisprintedToken(m);
    ExtractRecordOf(text, m);
  }

  lemma MisprintedToken(m: string)
    requires m in Misprinted
    ensures !IsGarbage(m) && TrimSuffix(m) == m[..|m| - 1]
    ensures ' ' !in m[..|m| - 1] && '\t' !in m[..|m| - 1]
    ensures Normalize(m[..|m| - 1]) == Prefix + m[..|m| - 1]
  {
    var t := m[..|m| - 1];
    if m == "BBL_CR_CTL30" {
      assert t == "BBL_CR_CTL3";
    } else if m == "IA32_MCG_STATUS0" {
      assert t == "IA32_MCG_STATUS";
    } else {
      assert t == "DEBUGCTLMSR";
    }
    assert forall i :: 0 <= i < |t| ==> UpperWordChar(t[i]);
    assert m == t + "0";
    StrayZero(m, t);
  }

  /** Upper-case letters, digits and '_', the characters of an MSR name. */
  predicate UpperWordChar(c: char) {
    'A' <= c <= 'Z' || '0' <= c <= '9' || c == '_'
  }

  /** A misprinted name is a plain upper-case word and a stray '0'. */
  lemma StrayZero(m: string, t: string)
    requires m == t + "0" && m in Misprinted
    requires |t| > 0 && t[0] != 'M'
    requires forall i :: 0 <= i < |t| ==> UpperWordChar(t[i])
    ensures !IsGarbage(m) && TrimSuffix(m) == t
    ensures ' ' !in t && '\t' !in t
    ensures Normalize(t) == Prefix + t
  {
    assert forall c :: c in m ==> UpperWordChar(c) by {
      assert forall i :: 0 <= i < |m| ==> UpperWordChar(m[i]) by {
        assert forall i :: 0 <= i < |t| ==> m[i] == t[i];
      }
    }
    assert m != "Reserved" && m != "and" by {
      assert !UpperWordChar('e') && !UpperWordChar('a');
      assert m[0] != 'a' && m[1 % |m|] != 'e';
    }
    assert !EndsWith(m, "Table") by {
      assert m[|m| - 1] == '0';
    }
    assert m[..|m| - 1] == t;
    assert ' ' !in t && '\t' !in t && '\n' !in t && '(' !in t;
    assert !StartsWith(t, Prefix) by {
      assert t[0] != Prefix[0];
    }
    NormalizePlain(t);
  }

  /** A machine-check address name, `MC<n>_ADDR<d>` somewhere in it, loses
      its last character, the superscript the manual puts after it. */
  lemma ExtractMcAddrRecord(text: string, n: string)
    requires IsRecordStart(text)
    requires NameToken(text) == Some(n) && Clean(n) && HasMcAddr(n)
    requires !EndsWith(n, "Table") && n !in Misprinted
    ensures ExtractRecord(text) == Ok(Some(Record(AddPrefix(n[..|n| - 1]), HexValue(AddressDigits(text)))))
  {
    McAddrToken(n);
    ExtractRecordOf(text, n);
  }

  lemma McAddrToken(n: string)
    requires Clean(n) && HasMcAddr(n) && All(n, NonBlank)
    requires !EndsWith(n, "Table") && n !in Misprinted
    ensures |n| > 0 && !IsGarbage(n) && TrimSuffix(n) == n[..|n| - 1]
    ensures ' ' !in n[..|n| - 1] && '\t' !in n[..|n| - 1]
    ensures Normalize(n[..|n| - 1]) == AddPrefix(n[..|n| - 1])
  {
    McAddrLength(n);
    var t := n[..|n| - 1];
    assert n != "Reserved" && n != "and" by {
      var k :| 0 <= k < |n| && McAddrAt(n[k..]);
      assert n[k] == 'M';
      NoMInReserved(n, k);
    }
    assert ' ' !in t && '\t' !in t && '\n' !in t && '(' !in t by {
      assert forall i :: 0 <= i < |t| ==> t[i] == n[i] && In(n[i], NonBlank);
    }
    NormalizePlain(t);
  }

  lemma NoMInReserved(n: string, k: nat)
    requires k < |n| && n[k] == 'M'
    ensures n != "Reserved"
  {
    var r := "Reserved";
    assert forall i :: 0 <= i < |r| ==> r[i] != 'M';
  }

  /** A name broken over two lines, `A\nB`, is the constant `MSR_AB` (or
      `AB` when `A` already starts with "MSR_"). */
  lemma ExtractTwoLineRecord(text: string, a: string, b: string)
    requires IsRecordStart(text)
    requires NameToken(text) == Some(a + "\n" + b) && Clean(a) && Clean(b)
    requires !EndsWith(a + "\n" + b, "Table") && !HasMcAddr(a + "\n" + b)
    ensures ExtractRecord(text) == Ok(Some(Record(AddPrefix(a) + b, HexValue(AddressDigits(text)))))
  {
    TwoLineToken(a + "\n" + b, a, b);
    ExtractRecordOf(text, a + "\n" + b);
  }

  lemma TwoLineToken(tok: string, a: string, b: string)
    requires tok == a + "\n" + b && Clean(a) && Clean(b) && All(tok, NonBlank)
    requires !EndsWith(tok, "Table") && !HasMcAddr(tok)
    ensures !IsGarbage(tok) && TrimSuffix(tok) == tok && ' ' !in tok && '\t' !in tok
    ensures Normalize(tok) == AddPrefix(a) + b
  {
    assert tok[|a|] == '\n';
    assert !IsGarbage(tok) && tok !in Misprinted by {
      assert forall c :: c in tok ==> c in a || c == '\n' || c in b;
      assert '\n' !in "Reserved" && '\n' !in "and";
      assert forall m :: m in Misprinted ==> '\n' !in m;
    }
    assert ' ' !in tok && '\t' !in tok by {
      assert forall i :: 0 <= i < |tok| ==> In(tok[i], NonBlank);
    }
    if StartsWith(a, Prefix) {
      assert tok[..4] == a[..4];
      StripNotesJoinsLines(a, b);
    } else {
      assert !StartsWith(tok, Prefix) by {
        if |a| >= 4 {
          assert tok[..4] == a[..4];
        } else {
          assert tok[|a|] != Prefix[|a|];
        }
      }
      assert Prefix + tok == (Prefix + a) + "\n" + b;
      StripNotesJoinsLines(Prefix + a, b);
    }
  }

  predicate WellNamedRecords(rs: seq<Record>) {
    forall k :: 0 <= k < |rs| ==> WellNamed(rs[k].name)
  }

  predicate WellNamedFamilies(fs: seq<Family>) {
    forall k :: 0 <= k < |fs| ==> WellNamedRecords(fs[k].records)
  }

  /** Every group of `gs` has its name token. */
  predicate NamedGroups(gs: seq<LineGroup>) {
    forall k :: 0 <= k < |gs| ==> NameToken(gs[k].Joined()).Some?
  }

  /** The records of a family's groups, in order, skipping garbage; the
      first group with a missing name token is the fault. */
  function ExtractGroups(gs: seq<LineGroup>): (r: Result<seq<Record>>)
    requires RecordGroups(gs)
    ensures r.Ok? <==> NamedGroups(gs)
    ensures r.Err? ==> r.fault.MissingName?
    ensures r.Ok? ==> |r.value| <= |gs| && WellNamedRecords(r.value)
  {
    if gs == [] then Ok([])
    else
      NamedGroupsCons(gs);
      var first := ExtractRecord(gs[0].Joined());
      var rest := ExtractGroups(gs[1..]);
      if first.Ok? && rest.Ok? then
        WellNamedCons(first.value, rest.value);
        Prepend(first, rest)
      else
        Prepend(first, rest)
  }

  /** One group's outcome in front of the outcome of the groups after it:
      the first fault wins, and a garbage group adds no record. */
  function Prepend(first: Result<Option<Record>>, rest: Result<seq<Record>>): (r: Result<seq<Record>>)
    ensures r.Ok? <==> first.Ok? && rest.Ok?
    ensures first.Err? ==> r == Err(first.fault)
    ensures first.Ok? && rest.Err? ==> r == Err(rest.fault)
  {
    match first
    case Err(f) => Err(f)
    case Ok(o) =>
      match rest
      case Err(f) => Err(f)
      case Ok(rs) => Ok((if o.Some? then [o.value] else []) + rs)
  }

  lemma NamedGroupsCons(gs: seq<LineGroup>)
    requires gs != [] && RecordGroups(gs)
    ensures RecordGroups(gs[1..]) && IsRecordStart(gs[0].Joined())
    ensures NamedGroups(gs) <==> NameToken(gs[0].Joined()).Some? && NamedGroups(gs[1..])
  {
    assert forall k :: 0 <= k < |gs| - 1 ==> gs[1..][k] == gs[k + 1];
  }

  lemma WellNamedCons(first: Option<Record>, rest: seq<Record>)
    requires first.Some? ==> WellNamed(first.value.name)
    requires WellNamedRecords(rest)
    ensures WellNamedRecords((if first.Some? then [first.value] else []) + rest)
  {
    var rs := (if first.Some? then [first.value] else []) + rest;
    forall k | 0 <= k < |rs|
      ensures WellNamed(rs[k].name)
    {
      if first.Some? && k > 0 {
        assert rs[k] == rest[k - 1];
      } else if first.None? {
        assert rs[k] == rest[k];
      }
    }
  }

  /** The family `f` holds exactly the records of the groups of `s`. */
  predicate SectionRecords(s: Section, f: Family) {
    RecordGroups(s.groups) && ExtractGroups(s.groups) == Ok(f.records)
  }

  /** A single group contributes its record, nothing for garbage, or its
      fault. */
  lemma ExtractGroupsSingle(g: LineGroup)
    requires IsRecordStart(g.Joined())
    ensures RecordGroups([g])
    ensures ExtractGroups([g]) ==
      match ExtractRecord(g.Joined())
      case Err(f) => Err(f)
      case Ok(None) => Ok([])
      case Ok(Some(r)) => Ok([r])
  {
    var gs := [g];
    assert gs[0] == g && gs[1..] == [];
    var e := ExtractRecord(g.Joined());
    assert ExtractGroups(gs) == Prepend(e, Ok([]));
    if e.Ok? && e.value.Some? {
      assert [e.value.value] + [] == [e.value.value];
    }
  }

  /** The outcome of two runs of groups one after the other: the first
      fault wins, otherwise the records of both in order. */
  function Join(x: Result<seq<Record>>, y: Result<seq<Record>>): (r: Result<seq<Record>>)
    ensures r.Ok? <==> x.Ok? && y.Ok?
    ensures x.Err? ==> r == x
  {
    match x
    case Err(f) => Err(f)
    case Ok(xs) =>
      match y
      case Err(f) => Err(f)
      case Ok(ys) => Ok(xs + ys)
  }

  /** Extraction runs group by group: the outcome for two runs of groups
      is the outcome for the first joined with that for the second. */
  lemma {:induction false} ExtractGroupsAppend(a: seq<LineGroup>, b: seq<LineGroup>)
    requires RecordGroups(a) && RecordGroups(b)
    ensures RecordGroups(a + b)
    ensures ExtractGroups(a + b) == Join(ExtractGroups(a), ExtractGroups(b))
    decreases |a|
  {
    RecordGroupsAppend(a, b);
    if a == [] {
      assert a + b == b;
      assert ExtractGroups(a) == Ok([]);
      if ExtractGroups(b).Ok? {
        assert [] + ExtractGroups(b).value == ExtractGroups(b).value;
      }
    } else {
      NamedGroupsCons(a);
      assert (a + b)[0] == a[0] && (a + b)[1..] == a[1..] + b;
      var e := ExtractRecord(a[0].Joined());
      ExtractGroupsAppend(a[1..], b);
      assert ExtractGroups(a + b) == Prepend(e, ExtractGroups(a[1..] + b));
      assert ExtractGroups(a) == Prepend(e, ExtractGroups(a[1..]));
      PrependJoin(e, ExtractGroups(a[1..]), ExtractGroups(b));
    }
  }

  lemma RecordGroupsAppend(a: seq<LineGroup>, b: seq<LineGroup>)
    requires RecordGroups(a) && RecordGroups(b)
    ensures RecordGroups(a + b)
  {
    forall k | 0 <= k < |a + b|
      ensures IsRecordStart((a + b)[k].Joined())
    {
      if k < |a| {
        assert (a + b)[k] == a[k];
      } else {
        assert (a + b)[k] == b[k - |a|];
      }
    }
  }

  lemma PrependJoin(e: Result<Option<Record>>, x: Result<seq<Record>>, y: Result<seq<Record>>)
    ensures Prepend(e, Join(x, y)) == Join(Prepend(e, x), y)
  {
    if e.Ok? && x.Ok? && y.Ok? {
      var h := if e.value.Some? then [e.value.value] else [];
      assert h + (x.value + y.value) == (h + x.value) + y.value;
    }
  }

  /** Every section becomes a family with the same header, in order,
      holding the records of the section's groups. */
  function ExtractSections(ss: seq<Section>): (r: Result<seq<Family>>)
    requires RecordSections(ss)
    ensures r.Ok? <==> forall k :: 0 <= k < |ss| ==> NamedGroups(ss[k].groups)
    ensures r.Err? ==> r.fault.MissingName?
    ensures r.Ok? ==> |r.value| == |ss| && WellNamedFamilies(r.value)
    ensures r.Ok? ==> forall k :: 0 <= k < |ss| ==> r.value[k].header == ss[k].header
    ensures r.Ok? ==> forall k :: 0 <= k < |ss| ==> SectionRecords(ss[k], r.value[k])
  {
    if ss == [] then Ok([])
    else
      SectionsCons(ss);
      var first := ExtractGroups(ss[0].groups);
      var rest := ExtractSections(ss[1..]);
      if first.Err? then Err(first.fault)
      else if rest.Err? then Err(rest.fault)
      else
        var f := Family(ss[0].header, first.value);
        FamiliesCons(ss, f, rest.value);
        Ok([f] + rest.value)
  }

  lemma SectionsCons(ss: seq<Section>)
    requires ss != [] && RecordSections(ss)
    ensures RecordGroups(ss[0].groups) && RecordSections(ss[1..])
    ensures (forall k :: 0 <= k < |ss| ==> NamedGroups(ss[k].groups)) <==>
              NamedGroups(ss[0].groups) && forall k :: 0 <= k < |ss[1..]| ==> NamedGroups(ss[1..][k].groups)
  {
    assert forall k :: 0 <= k < |ss| - 1 ==> ss[1..][k] == ss[k + 1];
  }

  lemma FamiliesCons(ss: seq<Section>, f: Family, rest: seq<Family>)
    requires ss != [] && RecordSections(ss)
    requires f.header == ss[0].header && SectionRecords(ss[0], f) && WellNamedRecords(f.records)
    requires |rest| == |ss| - 1 && WellNamedFamilies(rest)
    requires forall k :: 0 <= k < |rest| ==> rest[k].header == ss[1..][k].header
    requires forall k :: 0 <= k < |rest| ==> SectionRecords(ss[1..][k], rest[k])
    ensures |[f] + rest| == |ss| && WellNamedFamilies([f] + rest)
    ensures forall k :: 0 <= k < |ss| ==> ([f] + rest)[k].header == ss[k].header
    ensures forall k :: 0 <= k < |ss| ==> SectionRecords(ss[k], ([f] + rest)[k])
  {
    var fs := [f] + rest;
    forall k | 0 <= k < |ss|
      ensures fs[k].header == ss[k].header && SectionRecords(ss[k], fs[k])
      ensures WellNamedRecords(fs[k].records)
    {
      if k > 0 {
        assert fs[k] == rest[k - 1] && ss[k] == ss[1..][k - 1];
      }
    }
  }
}

=== FILE: grouping.dfy ===
/**
 * The grouping scan of extract_msr.rb (lines 45-60): the lines of the
 * preprocessed text are walked once, left to right. A section header opens
 * a new family; a line that starts with a hex address opens a record group
 * in the current family, taking the following line along unless that line
 * starts a record of its own; every other line is ignored.
 */
module Grouping {
  import opened Types
  import opened Text

  /** /^35\.\d+ (MSRS|ARCHITECTURAL MSRS)/: a numbered heading of chapter 35
      whose title is "MSRS ..." or "ARCHITECTURAL MSRS ...". A line holds no
      '\n' before its end, so `^` can only match at its first character. */
  predicate IsHeader(line: string) {
    && |line| >= 3 && line[0] == '3' && line[1] == '5' && line[2] == '.'
    && var d := Span(line[3..], Digit);
       var title := line[3 + d..];
       && d > 0 && |title| > 0 && title[0] == ' '
       && (StartsWith(title[1..], "MSRS") || StartsWith(title[1..], "ARCHITECTURAL MSRS"))
  }

  /** /^[0-9A-F]+H /: the line starts with an upper-case hex address, its
      'H' suffix and a space. */
  predicate IsRecordStart(line: string) {
    var n := Span(line, UpperHex);
    0 < n && n + 2 <= |line| && line[n] == 'H' && line[n + 1] == ' '
  }

  /** The two line patterns exclude each other, so the order in which the
      `case` tries them does not matter. */
  lemma HeaderIsNotRecordStart(line: string)
    requires IsHeader(line)
    ensures !IsRecordStart(line)
  {
    var n := Span(line, UpperHex);
    if n > 2 {
      assert In(line[..n][2], UpperHex);
    }
  }

  /** Whatever follows a record-start line, the text still starts a record. */
  lemma RecordStartExtends(line: string, more: string)
    requires IsRecordStart(line)
    ensures IsRecordStart(line + more)
  {
    SpanOfExtension(line, more, UpperHex);
  }

  /** The one or two lines that make up a candidate record. */
  datatype LineGroup = LineGroup(lines: seq<string>) {
    /** `words.join("")`. */
    function Joined(): string {
      Concat(lines)
    }
  }

  /** A family section: its header line and its record groups, in order. */
  datatype Section = Section(header: string, groups: seq<LineGroup>)

  /** Every group's text starts with a record line. */
  predicate RecordGroups(gs: seq<LineGroup>) {
    forall k :: 0 <= k < |gs| ==> IsRecordStart(gs[k].Joined())
  }

  predicate RecordSections(ss: seq<Section>) {
    forall k :: 0 <= k < |ss| ==> RecordGroups(ss[k].groups)
  }

  /** The group opened by the record line at `i`: the line, followed by the
      next line exactly when that one is not itself a record start. Past the
      last line the lookahead reads nil, which joins as "". */
  function GroupAt(lines: seq<string>, i: nat): (g: LineGroup)
    requires i < |lines|
    ensures 1 <= |g.lines| <= 2 && g.lines[0] == lines[i]
    ensures g.Joined() == lines[i] + (if i + 1 < |lines| && !IsRecordStart(lines[i + 1]) then lines[i + 1] else "")
    ensures IsRecordStart(lines[i]) ==> IsRecordStart(g.Joined())
  {
    var g :=
      if i + 1 == |lines| then LineGroup([lines[i], ""])
      else if IsRecordStart(lines[i + 1]) then LineGroup([lines[i]])
      else LineGroup([lines[i], lines[i + 1]]);
    assert g.Joined() == lines[i] + (if |g.lines| == 2 then g.lines[1] else "") by {
      ConcatPair(lines[i], if |g.lines| == 2 then g.lines[1] else "");
      assert lines[i] + "" == lines[i];
    }
    assert IsRecordStart(lines[i]) ==> IsRecordStart(g.Joined()) by {
      if IsRecordStart(lines[i]) {
        RecordStartExtends(lines[i], if |g.lines| == 2 then g.lines[1] else "");
      }
    }
    g
  }

  /** The scan itself, with the families collected so far in `acc`; the
      current family is always the last one. A record line met while there
      is no family yet is the `nil.push` crash. */
  function Collect(lines: seq<string>, i: nat, acc: seq<Section>): Result<seq<Section>>
    requires i <= |lines|
    decreases |lines| - i
  {
    if i == |lines| then Ok(acc)
    else if IsHeader(lines[i]) then
      Collect(lines, i + 1, acc + [Section(lines[i], [])])
    else if IsRecordStart(lines[i]) then
      if acc == [] then Err(RecordBeforeHeader(i))
      else
        var cur := acc[|acc| - 1];
        Collect(lines, i + 1, acc[..|acc| - 1] + [cur.(groups := cur.groups + [GroupAt(lines, i)])])
    else
      Collect(lines, i + 1, acc)
  }

  function Group(lines: seq<string>): Result<seq<Section>> {
    Collect(lines, 0, [])
  }

  // ---------------------------------------------------------------------
  // A direct description of the result, without the scan state

  /** Positions of the header lines among the first `n` lines, ascending. */
  function HeadersBefore(lines: seq<string>, n: nat): (hs: seq<nat>)
    requires n <= |lines|
    ensures forall k :: 0 <= k < |hs| ==> hs[k] < n
    ensures forall k :: 0 < k < |hs| ==> hs[k - 1] < hs[k]
  {
    if n == 0 then []
    else HeadersBefore(lines, n - 1) + (if IsHeader(lines[n - 1]) then [n - 1] else [])
  }

  /** HeadersBefore lists exactly the header lines below `n`. */
  lemma {:induction false} HeadersBeforeExact(lines: seq<string>, n: nat)
    requires n <= |lines|
    ensures forall j :: 0 <= j < n ==> (j in HeadersBefore(lines, n) <==> IsHeader(lines[j]))
  {
    if n > 0 {
      HeadersBeforeExact(lines, n - 1);
    }
  }

  /** The groups opened by the record lines at positions `a` to `b - 1`. */
  function GroupsBetween(lines: seq<string>, a: nat, b: nat): (gs: seq<LineGroup>)
    requires a <= b <= |lines|
    ensures RecordGroups(gs)
    decreases b
  {
    if a == b then []
    else GroupsBetween(lines, a, b - 1) + (if IsRecordStart(lines[b - 1]) then [GroupAt(lines, b - 1)] else [])
  }

  /** `acc` is what the first `n` lines yield: one section per header line,
      in input order, each holding the groups of exactly the record lines
      between its header and the next header (or line `n`). */
  predicate Collected(lines: seq<string>, n: nat, acc: seq<Section>)
    requires n <= |lines|
  {
    && |acc| == |HeadersBefore(lines, n)|
    && forall k :: 0 <= k < |acc| ==> SectionOf(lines, n, acc[k], k)
  }

  /** The section the `k`-th header line below line `n` opens: its header,
      and the groups of the record lines up to the next header or line `n`. */
  predicate SectionOf(lines: seq<string>, n: nat, s: Section, k: nat)
    requires n <= |lines|
  {
    var hs := HeadersBefore(lines, n);
    && k < |hs|
    && s.header == lines[hs[k]]
    && s.groups == GroupsBetween(lines, hs[k] + 1, if k + 1 < |hs| then hs[k + 1] else n)
  }

  /** A record line with no header anywhere above it. */
  predicate Orphan(lines: seq<string>, j: nat)
    requires j < |lines|
  {
    IsRecordStart(lines[j]) && HeadersBefore(lines, j) == []
  }

  predicate OrphanFrom(lines: seq<string>, i: nat)
    requires i <= |lines|
  {
    exists j :: i <= j < |lines| && Orphan(lines, j)
  }

  /** One header line: a new, empty section is appended. */
  lemma {:induction false} CollectedHeaderStep(lines: seq<string>, i: nat, acc: seq<Section>)
    requires i < |lines| && IsHeader(lines[i])
    requires Collected(lines, i, acc)
    ensures Collected(lines, i + 1, acc + [Section(lines[i], [])])
  {
    var hs := HeadersBefore(lines, i);
    var hs' := HeadersBefore(lines, i + 1);
    assert hs' == hs + [i];
    var acc' := acc + [Section(lines[i], [])];
    forall k | 0 <= k < |acc'|
      ensures SectionOf(lines, i + 1, acc'[k], k)
    {
      if k < |acc| {
        assert SectionOf(lines, i, acc[k], k);
        assert acc'[k] == acc[k] && hs'[k] == hs[k] && hs'[k + 1] == if k + 1 < |hs| then hs[k + 1] else i;
      } else {
        assert acc'[k] == Section(lines[i], []) && hs'[k] == i;
      }
    }
  }

  /** One record line after a header: its group joins the last section. */
  lemma {:induction false} CollectedRecordStep(lines: seq<string>, i: nat, acc: seq<Section>)
    requires i < |lines| && IsRecordStart(lines[i])
    requires Collected(lines, i, acc) && acc != []
    ensures
      var cur := acc[|acc| - 1];
      Collected(lines, i + 1, acc[..|acc| - 1] + [cur.(groups := cur.groups + [GroupAt(lines, i)])])
  {
    if IsHeader(lines[i]) {
      HeaderIsNotRecordStart(lines[i]);
    }
    var hs := HeadersBefore(lines, i);
    assert HeadersBefore(lines, i + 1) == hs;
    var cur := acc[|acc| - 1];
    var acc' := acc[..|acc| - 1] + [cur.(groups := cur.groups + [GroupAt(lines, i)])];
    forall k | 0 <= k < |acc'|
      ensures SectionOf(lines, i + 1, acc'[k], k)
    {
      assert SectionOf(lines, i, acc[k], k);
      if k < |acc| - 1 {
        assert acc'[k] == acc[k];
      } else {
        assert acc'[k] == cur.(groups := cur.groups + [GroupAt(lines, i)]);
        assert cur.groups == GroupsBetween(lines, hs[k] + 1, i);
      }
    }
  }

  /** Any other line: nothing changes, the last section's range grows. */
  lemma {:induction false} CollectedOtherStep(lines: seq<string>, i: nat, acc: seq<Section>)
    requires i < |lines| && !IsHeader(lines[i]) && !IsRecordStart(lines[i])
    requires Collected(lines, i, acc)
    ensures Collected(lines, i + 1, acc)
  {
    var hs := HeadersBefore(lines, i);
    assert HeadersBefore(lines, i + 1) == hs;
    forall k | 0 <= k < |acc|
      ensures SectionOf(lines, i + 1, acc[k], k)
    {
      assert SectionOf(lines, i, acc[k], k);
    }
  }

  /** An orphan ahead of line `i` is either line `i` or lies further on. */
  lemma OrphanFromStep(lines: seq<string>, i: nat)
    requires i < |lines|
    ensures OrphanFrom(lines, i) <==> Orphan(lines, i) || OrphanFrom(lines, i + 1)
  {
    if OrphanFrom(lines, i) {
      var j :| i <= j < |lines| && Orphan(lines, j);
      assert j == i || (i + 1 <= j < |lines| && Orphan(lines, j));
    }
  }

  /** The scan from line `i` on fails exactly when an orphan record line
      lies ahead, and otherwise ends with the sections the whole input
      describes. */
  lemma {:induction false} CollectSpec(lines: seq<string>, i: nat, acc: seq<Section>)
    requires i <= |lines|
    requires Collected(lines, i, acc)
    ensures Collect(lines, i, acc).Ok? <==> !OrphanFrom(lines, i)
    ensures Collect(lines, i, acc).Ok? ==> Collected(lines, |lines|, Collect(lines, i, acc).value)
    decreases |lines| - i
  {
    if i < |lines| {
      var line := lines[i];
      OrphanFromStep(lines, i);
      if IsHeader(line) {
        HeaderIsNotRecordStart(line);
        var acc' := acc + [Section(line, [])];
        assert Collect(lines, i, acc) == Collect(lines, i + 1, acc');
        assert !Orphan(lines, i);
        CollectedHeaderStep(lines, i, acc);
        CollectSpec(lines, i + 1, acc');
      } else if IsRecordStart(line) {
        if acc != [] {
          var cur := acc[|acc| - 1];
          var acc' := acc[..|acc| - 1] + [cur.(groups := cur.groups + [GroupAt(lines, i)])];
          assert Collect(lines, i, acc) == Collect(lines, i + 1, acc');
          assert !Orphan(lines, i) by {
            assert |HeadersBefore(lines, i)| == |acc| > 0;
          }
          CollectedRecordStep(lines, i, acc);
          CollectSpec(lines, i + 1, acc');
        } else {
          assert Collect(lines, i, acc) == Err(RecordBeforeHeader(i));
          assert Orphan(lines, i) by {
            assert |HeadersBefore(lines, i)| == |acc| == 0;
          }
        }
      } else {
        assert Collect(lines, i, acc) == Collect(lines, i + 1, acc);
        assert !Orphan(lines, i);
        CollectedOtherStep(lines, i, acc);
        CollectSpec(lines, i + 1, acc);
      }
    } else {
      assert Collect(lines, i, acc) == Ok(acc);
      assert !OrphanFrom(lines, i);
    }
  }

  /** The grouping of a whole text: it fails exactly when some record line
      has no header above it; otherwise there is one section per header
      line, in input order, and each section holds the groups of the record
      lines between its header and the next one. */
  lemma GroupSpec(lines: seq<string>)
    ensures Group(lines).Ok? <==> !OrphanFrom(lines, 0)
    ensures Group(lines).Ok? ==> Collected(lines, |lines|, Group(lines).value)
  {
    CollectSpec(lines, 0, []);
  }

  /** The only way the scan fails is a record line with no header above
      it, and the fault names the first such line: every earlier line was
      scanned without complaint. */
  lemma {:induction false} CollectFault(lines: seq<string>, i: nat, acc: seq<Section>)
    requires i <= |lines|
    requires Collected(lines, i, acc)
    requires forall j :: 0 <= j < i ==> !Orphan(lines, j)
    ensures var r := Collect(lines, i, acc);
      r.Err? ==>
        && r.fault.RecordBeforeHeader?
        && i <= r.fault.line < |lines|
        && Orphan(lines, r.fault.line)
        && forall j :: 0 <= j < r.fault.line ==> !Orphan(lines, j)
    decreases |lines| - i
  {
    if i < |lines| {
      var line := lines[i];
      if IsHeader(line) {
        HeaderIsNotRecordStart(line);
        var acc' := acc + [Section(line, [])];
        assert Collect(lines, i, acc) == Collect(lines, i + 1, acc');
        assert !Orphan(lines, i);
        CollectedHeaderStep(lines, i, acc);
        NoOrphanBefore(lines, i);
        CollectFault(lines, i + 1, acc');
      } else if IsRecordStart(line) {
        if acc != [] {
          var cur := acc[|acc| - 1];
          var acc' := acc[..|acc| - 1] + [cur.(groups := cur.groups + [GroupAt(lines, i)])];
          assert Collect(lines, i, acc) == Collect(lines, i + 1, acc');
          assert !Orphan(lines, i) by {
            assert |HeadersBefore(lines, i)| == |acc| > 0;
          }
          CollectedRecordStep(lines, i, acc);
          NoOrphanBefore(lines, i);
          CollectFault(lines, i + 1, acc');
        } else {
          assert Collect(lines, i, acc) == Err(RecordBeforeHeader(i));
          assert Orphan(lines, i) by {
            assert |HeadersBefore(lines, i)| == |acc| == 0;
          }
        }
      } else {
        assert Collect(lines, i, acc) == Collect(lines, i + 1, acc);
        assert !Orphan(lines, i);
        CollectedOtherStep(lines, i, acc);
        NoOrphanBefore(lines, i);
        CollectFault(lines, i + 1, acc);
      }
    }
  }

  lemma NoOrphanBefore(lines: seq<string>, i: nat)
    requires i < |lines|
    requires forall j :: 0 <= j < i ==> !Orphan(lines, j)
    requires !Orphan(lines, i)
    ensures forall j :: 0 <= j < i + 1 ==> !Orphan(lines, j)
  {
  }

  /** A failed grouping reports the first record line of the text that has
      no header above it. */
  lemma GroupFault(lines: seq<string>)
    ensures var r := Group(lines);
      r.Err? ==>
        && r.fault.RecordBeforeHeader?
        && r.fault.line < |lines|
        && Orphan(lines, r.fault.line)
        && forall j :: 0 <= j < r.fault.line ==> !Orphan(lines, j)
  {
    CollectFault(lines, 0, []);
  }

  /** Every group the grouping produces starts with a record line. */
  lemma GroupsAreRecords(lines: seq<string>)
    requires Group(lines).Ok?
    ensures RecordSections(Group(lines).value)
  {
    GroupSpec(lines);
    var ss := Group(lines).value;
    var hs := HeadersBefore(lines, |lines|);
    assert Collected(lines, |lines|, ss);
    forall k | 0 <= k < |ss|
      ensures RecordGroups(ss[k].groups)
    {
      assert SectionOf(lines, |lines|, ss[k], k);
    }
  }
}

=== FILE: pipeline.dfy ===
/**
 * The whole of extract_msr.rb after the text has been read (lines 39-172):
 * the wrapped addresses are joined, the text is cut into lines, the lines
 * are grouped by family, each group becomes a record, duplicates are
 * dropped and the header is printed. The two crashes of the script are the
 * two faults of the result.
 */
module Pipeline {
  import opened Types
  import opened Text
  import opened Preprocess
  import opened Grouping
  import opened Extract
  import opened Duplicates
  import opened Emit

  /** The lines of the preprocessed text (lines 39-40). */
  function InputLines(raw: string): seq<string> {
    Lines(Rewrite(raw))
  }

  /** The families with their records, before duplicates are dropped
      (lines 45-101): one per section of the grouping, in order, each
      holding the records its section's groups yield. */
  function Families(raw: string): (r: Result<seq<Family>>)
    ensures r.Ok? ==> WellNamedFamilies(r.value)
    ensures r.Ok? ==> Group(InputLines(raw)).Ok?
    ensures r.Ok? ==> |r.value| == |Group(InputLines(raw)).value|
    ensures r.Ok? ==> forall k :: 0 <= k < |r.value| ==>
              && r.value[k].header == Group(InputLines(raw)).value[k].header
              && SectionRecords(Group(InputLines(raw)).value[k], r.value[k])
  {
    var lines := InputLines(raw);
    var sections :- Group(lines);
    GroupsAreRecords(lines);
    ExtractSections(sections)
  }

  /** The generated part of the header (lines 104-172). */
  function Generate(raw: string): Result<string> {
    var fs :- Families(raw);
    Ok(Render(Dedup(fs)))
  }

  /** When the script fails, and how: a record line above every header is
      the `nil.push` crash, reported as soon as grouping meets it; a group
      without a name token is the crash on nil in the extraction, which is
      reached only once grouping succeeded. */
  lemma GenerateFaults(raw: string)
    ensures var lines := InputLines(raw);
      Generate(raw).Ok? <==>
        && Group(lines).Ok?
        && forall k :: 0 <= k < |Group(lines).value| ==> NamedGroups(Group(lines).value[k].groups)
    ensures Group(InputLines(raw)).Ok? <==> !OrphanFrom(InputLines(raw), 0)
    ensures Generate(raw).Err? ==> (Generate(raw).fault.RecordBeforeHeader? <==> OrphanFrom(InputLines(raw), 0))
  {
    var lines := InputLines(raw);
    GroupSpec(lines);
    GroupFault(lines);
    if Group(lines).Ok? {
      GroupsAreRecords(lines);
    }
  }

  /** Every family header is one line of the input. */
  lemma FamilyHeaders(raw: string)
    requires Families(raw).Ok?
    ensures forall k :: 0 <= k < |Families(raw).value| ==> IsLine(Families(raw).value[k].header)
  {
    var lines := InputLines(raw);
    GroupSpec(lines);
    GroupsAreRecords(lines);
    LinesSpec(Rewrite(raw));
    var ss := Group(lines).value;
    var hs := HeadersBefore(lines, |lines|);
    assert Collected(lines, |lines|, ss);
    forall k | 0 <= k < |Families(raw).value|
      ensures IsLine(Families(raw).value[k].header)
    {
      assert SectionOf(lines, |lines|, ss[k], k);
      assert Families(raw).value[k].header == ss[k].header == lines[hs[k]];
    }
  }

  lemma {:induction false} FlattenWellNamed(fs: seq<Family>)
    requires WellNamedFamilies(fs)
    ensures WellNamedRecords(Flatten(fs))
    decreases |fs|
  {
    if fs != [] {
      assert WellNamedFamilies(fs[1..]) by {
        assert forall k :: 0 <= k < |fs| - 1 ==> fs[1..][k] == fs[k + 1];
      }
      FlattenWellNamed(fs[1..]);
      var a := fs[0].records;
      var b := Flatten(fs[1..]);
      assert WellNamedRecords(a);
      assert forall k :: |a| <= k < |a + b| ==> (a + b)[k] == b[k - |a|];
    }
  }

  /** What a successful run prints: its `#define` lines are the first
      record of every name, in family-then-record order, so no name is
      defined twice, every extracted name is defined, and every name
      carries the "MSR_" prefix and no blank, line break or note; the
      output ends with `#endif`. */
  lemma GenerateSpec(raw: string)
    requires Generate(raw).Ok?
    ensures var out := Generate(raw).value;
      var fs := Families(raw).value;
      && Defines(out) == FirstOccurrences(Flatten(fs), {})
      && UniqueNames(Defines(out))
      && Names(Defines(out)) == Names(Flatten(fs))
      && WellNamedRecords(Defines(out))
      && EndsWith(out, "#endif\n")
  {
    var fs := Families(raw).value;
    var d := Dedup(fs);
    var out := Generate(raw).value;
    assert out == Render(d);
    DedupSpec(fs);
    FamilyHeaders(raw);
    assert forall k :: 0 <= k < |d| ==> IsLine(d[k].header) by {
      assert forall k :: 0 <= k < |d| ==> d[k].header == fs[k].header;
    }
    DedupWellNamed(fs, {});
    DefinesOfRender(d);
    FlattenWellNamed(d);
    assert out[|out| - 7..] == "#endif\n";
  }
}

=== FILE: preprocess.dfy ===
/**
 * The preprocessing rewrite of extract_msr.rb (line 39): a hex address that
 * the manual wrapped over two lines, written `<hex>_` on one line and
 * `<hex>H` on the next, is joined back into `<hex><hex>H ` on one line.
 * It is `gsub` of /([0-9A-F]+)_\n([0-9A-F]+)H\n/ by '\1\2H '.
 */
module Preprocess {
  import opened Types
  import opened Text

  /** The two digit runs of one occurrence of the wrapped-address pattern. */
  datatype WrappedAddress = WrappedAddress(high: string, low: string) {
    /** Number of characters the occurrence spans: both runs, "_\n" and "H\n". */
    function Length(): nat {
      |high| + |low| + 4
    }

    /** The occurrence as it appears in the text. */
    function Source(): string {
      high + "_\n" + low + "H\n"
    }

    /** What gsub puts in its place. */
    function Replacement(): string {
      high + low + "H "
    }
  }

  predicate IsAddressRun(s: string) {
    |s| > 0 && All(s, UpperHex)
  }

  /** The occurrence of the pattern that starts at the first character of
      `s`, if there is one. Both runs are greedy and stop at a character
      that is not an upper-case hex digit, so the match is unique. */
  function MatchAt(s: string): (m: Option<WrappedAddress>)
    ensures m.Some? ==> m.value.Length() <= |s|
  {
    var i := Span(s, UpperHex);
    if 0 < i && i + 2 <= |s| && s[i] == '_' && s[i + 1] == '\n' then
      var u := s[i + 2..];
      var j := Span(u, UpperHex);
      if 0 < j && j + 2 <= |u| && u[j] == 'H' && u[j + 1] == '\n' then
        Some(WrappedAddress(s[..i], u[..j]))
      else None
    else None
  }

  /** What MatchAt finds is an occurrence: the text begins with it. */
  lemma {:induction false} MatchAtSound(s: string)
    requires MatchAt(s).Some?
    ensures IsAddressRun(MatchAt(s).value.high) && IsAddressRun(MatchAt(s).value.low)
    ensures s[..MatchAt(s).value.Length()] == MatchAt(s).value.Source()
  {
    var i := Span(s, UpperHex);
    var u := s[i + 2..];
    var j := Span(u, UpperHex);
    assert s == s[..i] + "_\n" + u[..j] + "H\n" + u[j + 2..];
  }

  /** Every text that begins with an occurrence of the pattern is matched,
      with exactly those two runs: MatchAt recognises the pattern and nothing
      else. */
  lemma {:induction false} MatchAtComplete(w: WrappedAddress, rest: string)
    requires IsAddressRun(w.high) && IsAddressRun(w.low)
    ensures MatchAt(w.Source() + rest) == Some(w)
  {
    var s := w.Source() + rest;
    var i := |w.high|;
    var u := w.low + ("H\n" + rest);
    assert Span(s, UpperHex) == i && s[..i] == w.high && s[i] == '_' && s[i + 1] == '\n' && s[i + 2..] == u by {
      var t := "_\n" + u;
      assert s == w.high + t;
      SpanOfConcat(w.high, t, UpperHex);
    }
    var j := |w.low|;
    assert Span(u, UpperHex) == j && u[..j] == w.low && u[j] == 'H' && u[j + 1] == '\n' by {
      SpanOfConcat(w.low, "H\n" + rest, UpperHex);
    }
  }

  /** Some occurrence of the pattern starts within the first `n` positions
      of `s`. */
  predicate MatchWithin(s: string, n: nat)
    decreases n
  {
    n > 0 && |s| > 0 && (MatchAt(s).Some? || MatchWithin(s[1..], n - 1))
  }

  /** Some occurrence of the pattern starts anywhere in `s`. */
  predicate HasMatch(s: string) {
    MatchWithin(s, |s|)
  }

  /** The gsub: scanning left to right, every leftmost occurrence is replaced
      and the scan resumes after it. Each replacement is shorter than what it
      replaces, so the result is never longer than the input. */
  function Rewrite(s: string): (r: string)
    ensures |r| <= |s|
    decreases |s|
  {
    if s == [] then []
    else
      match MatchAt(s)
      case Some(w) =>
        w.Replacement() + Rewrite(s[w.Length()..])
      case None =>
        [s[0]] + Rewrite(s[1..])
  }

  /** The text is left unchanged exactly when it holds no occurrence;
      otherwise it gets strictly shorter. */
  lemma {:induction false} RewriteIdentity(s: string)
    ensures !HasMatch(s) ==> Rewrite(s) == s
    ensures HasMatch(s) ==> |Rewrite(s)| < |s|
    decreases |s|
  {
    if s != [] {
      match MatchAt(s)
      case Some(w) =>
        assert HasMatch(s);
        assert Rewrite(s) == w.Replacement() + Rewrite(s[w.Length()..]);
      case None =>
        var t := s[1..];
        assert HasMatch(s) == HasMatch(t) by {
          assert MatchWithin(s, |s|) == MatchWithin(t, |t|);
        }
        assert Rewrite(s) == [s[0]] + Rewrite(t);
        RewriteIdentity(t);
        assert s == [s[0]] + t;
    }
  }

  /** An occurrence at the very start is replaced by its joined address. */
  lemma {:induction false} RewriteAtMatch(w: WrappedAddress, rest: string)
    requires IsAddressRun(w.high) && IsAddressRun(w.low)
    ensures Rewrite(w.Source() + rest) == w.Replacement() + Rewrite(rest)
  {
    var s := w.Source() + rest;
    MatchAtComplete(w, rest);
    assert s[w.Length()..] == rest;
  }

  /** The leftmost occurrence is rewritten: if no occurrence starts in the
      prefix `u`, and one starts right after it, the output is `u`, then the
      joined address followed by "H ", then the rewrite of what follows. */
  lemma {:induction false} RewriteLeftmost(u: string, w: WrappedAddress, rest: string)
    requires IsAddressRun(w.high) && IsAddressRun(w.low)
    requires !MatchWithin(u + w.Source() + rest, |u|)
    ensures Rewrite(u + w.Source() + rest) == u + w.Replacement() + Rewrite(rest)
    decreases |u|
  {
    var s := u + w.Source() + rest;
    if u == [] {
      assert s == w.Source() + rest;
      RewriteAtMatch(w, rest);
    } else {
      LeftmostUnfold(u, w.Source(), rest);
      RewriteLeftmost(u[1..], w, rest);
      LeftmostStep(u, w.Source(), rest, w.Replacement(), Rewrite(rest));
    }
  }

  /** Before the first occurrence the text does not match at its start, and
      no occurrence lies in the rest of the prefix either. */
  lemma LeftmostUnfold(u: string, src: string, rest: string)
    requires u != [] && !MatchWithin(u + src + rest, |u|)
    ensures var s := u + src + rest;
      && s[1..] == u[1..] + src + rest
      && MatchAt(s).None?
      && !MatchWithin(u[1..] + src + rest, |u| - 1)
  {
    var s := u + src + rest;
    assert s[1..] == u[1..] + src + rest by {
      ConsAppend(u, src, rest);
    }
    assert MatchWithin(s, |u|) == (MatchAt(s).Some? || MatchWithin(s[1..], |u| - 1));
  }

  /** A character that starts no occurrence is copied, and the rewrite goes
      on from the next one. */
  lemma LeftmostStep(u: string, src: string, rest: string, r1: string, r2: string)
    requires u != [] && MatchAt(u + src + rest).None?
    requires Rewrite(u[1..] + src + rest) == u[1..] + r1 + r2
    ensures Rewrite(u + src + rest) == u + r1 + r2
  {
    var s := u + src + rest;
    assert s[1..] == u[1..] + src + rest && s[0] == u[0] by {
      ConsAppend(u, src, rest);
    }
    RewriteSkip(s);
    ConsAppend(u, r1, r2);
  }

  lemma RewriteSkip(s: string)
    requires s != [] && MatchAt(s).None?
    ensures Rewrite(s) == [s[0]] + Rewrite(s[1..])
  {
  }

  lemma ConsAppend(u: string, a: string, b: string)
    requires |u| > 0
    ensures [u[0]] + (u[1..] + a + b) == u + a + b
  {
    assert u == [u[0]] + u[1..];
  }
}

=== FILE: text.dfy ===
/**
 * Character classes and the small string primitives the script borrows from
 * Ruby: String#lines, String#chomp, String#split on /[\t ]+/, base-16
 * parsing (String#to_i(16)) and "%x" formatting.
 */
module Text {

  /** The character classes that occur in the script's regular expressions. */
  datatype CharClass =
    | UpperHex   // [0-9A-F]
    | Digit      // \d (ASCII)
    | Blank      // [\t ]
    | NonBlank   // [^\t ]

  predicate In(c: char, k: CharClass) {
    match k
    case UpperHex => '0' <= c <= '9' || 'A' <= c <= 'F'
    case Digit => '0' <= c <= '9'
    case Blank => c == ' ' || c == '\t'
    case NonBlank => c != ' ' && c != '\t'
  }

  predicate All(s: string, k: CharClass) {
    forall i :: 0 <= i < |s| ==> In(s[i], k)
  }

  predicate StartsWith(s: string, p: string) {
    |p| <= |s| && s[..|p|] == p
  }

  predicate EndsWith(s: string, p: string) {
    |p| <= |s| && s[|s| - |p|..] == p
  }

  /** Length of the longest prefix of `s` made of characters of class `k`
      (what a greedy `k+` or `k*` consumes). */
  function Span(s: string, k: CharClass): (n: nat)
    ensures n <= |s|
    ensures All(s[..n], k)
    ensures n < |s| ==> !In(s[n], k)
  {
    if s == [] || !In(s[0], k) then 0
    else
      var m := Span(s[1..], k);
      assert s[..1 + m] == [s[0]] + s[1..][..m];
      1 + m
  }

  /** A span stops exactly where its class ends: after an all-`k` prefix `a`
      followed by a character outside `k`, the span is `a`. */
  lemma {:induction false} SpanOfConcat(a: string, b: string, k: CharClass)
    requires All(a, k)
    requires |b| > 0 && !In(b[0], k)
    ensures Span(a + b, k) == |a|
  {
    if a != [] {
      assert (a + b)[1..] == a[1..] + b;
      SpanOfConcat(a[1..], b, k);
    }
  }

  /** A prefix whose span ends before its end has the same span in any
      extension. */
  lemma SpanOfExtension(a: string, b: string, k: CharClass)
    requires Span(a, k) < |a|
    ensures Span(a + b, k) == Span(a, k)
  {
    var n := Span(a, k);
    assert a + b == a[..n] + (a[n..] + b);
    assert a == a[..n] + a[n..];
    SpanOfConcat(a[..n], a[n..] + b, k);
  }

  /** Position of the first `c` in `s`, or |s| when there is none. */
  function Find(s: string, c: char): (k: nat)
    ensures k <= |s|
    ensures c !in s[..k]
    ensures k < |s| ==> s[k] == c
  {
    if s == [] || s[0] == c then 0
    else
      var m := Find(s[1..], c);
      assert s[..1 + m] == [s[0]] + s[1..][..m];
      1 + m
  }

  /** Find returns the first occurrence. */
  lemma {:induction false} FindAt(s: string, c: char, j: nat)
    requires j <= |s| && c !in s[..j]
    requires j == |s| || s[j] == c
    ensures Find(s, c) == j
  {
    if j > 0 {
      assert s[..j][0] == s[0];
      assert s[1..][..j - 1] == s[..j][1..];
      FindAt(s[1..], c, j - 1);
    }
  }

  // ---------------------------------------------------------------------
  // String#lines

  /** Number of characters of the first line of `s`, its '\n' included. */
  function LineLength(s: string): (k: nat)
    requires |s| > 0
    ensures 0 < k <= |s|
    ensures '\n' !in s[..k - 1]
    ensures k < |s| ==> s[k - 1] == '\n'
  {
    if s[0] == '\n' || |s| == 1 then 1
    else
      var m := LineLength(s[1..]);
      assert s[..m] == [s[0]] + s[1..][..m - 1];
      1 + m
  }

  function Concat(ss: seq<string>): string {
    if ss == [] then [] else ss[0] + Concat(ss[1..])
  }

  lemma ConcatPair(a: string, b: string)
    ensures Concat([a]) == a
    ensures Concat([a, b]) == a + b
  {
    assert [a][1..] == [];
    assert [a, b][1..] == [b];
    assert Concat([b]) == b by {
      assert [b][1..] == [];
    }
  }

  /** A line as String#lines yields it: non-empty, with at most one '\n',
      and that one at its end. */
  predicate IsLine(l: string) {
    |l| > 0 && '\n' !in l[..|l| - 1]
  }

  /** Ruby's String#lines: the text cut after every '\n', the '\n' kept with
      its line; a last line without '\n' is kept as it is. */
  function Lines(s: string): seq<string>
    decreases |s|
  {
    if s == [] then []
    else
      var k := LineLength(s);
      [s[..k]] + Lines(s[k..])
  }

  /** The first line, and the lines after it. */
  lemma LinesCons(s: string)
    requires s != []
    ensures Lines(s) == [s[..LineLength(s)]] + Lines(s[LineLength(s)..])
  {
  }

  lemma {:induction false} LinesConcat(s: string)
    ensures Concat(Lines(s)) == s
    decreases |s|
  {
    if s != [] {
      var k := LineLength(s);
      LinesCons(s);
      LinesConcat(s[k..]);
      assert ([s[..k]] + Lines(s[k..]))[1..] == Lines(s[k..]);
      assert s == s[..k] + s[k..];
    }
  }

  lemma {:induction false} LinesAreLines(s: string)
    ensures forall i :: 0 <= i < |Lines(s)| ==> IsLine(Lines(s)[i])
    decreases |s|
  {
    if s != [] {
      var k := LineLength(s);
      var rest := Lines(s[k..]);
      LinesCons(s);
      LinesAreLines(s[k..]);
      var ls := [s[..k]] + rest;
      forall i | 0 <= i < |ls|
        ensures IsLine(ls[i])
      {
        if i > 0 {
          assert ls[i] == rest[i - 1];
        }
      }
    }
  }

  lemma {:induction false} LinesEndBreak(s: string)
    ensures forall i :: 0 <= i < |Lines(s)| - 1 ==> |Lines(s)[i]| > 0 && Lines(s)[i][|Lines(s)[i]| - 1] == '\n'
    decreases |s|
  {
    if s != [] {
      var k := LineLength(s);
      var rest := Lines(s[k..]);
      LinesCons(s);
      LinesEndBreak(s[k..]);
      var ls := [s[..k]] + rest;
      forall i | 0 <= i < |ls| - 1
        ensures |ls[i]| > 0 && ls[i][|ls[i]| - 1] == '\n'
      {
        if i > 0 {
          assert ls[i] == rest[i - 1];
        } else {
          assert |rest| > 0;
          assert |s[k..]| > 0;
        }
      }
    }
  }

  /** The lines put back together are the text; each is a line, and all
      but the last end with their '\n'. */
  lemma LinesSpec(s: string)
    ensures Concat(Lines(s)) == s
    ensures forall i :: 0 <= i < |Lines(s)| ==> IsLine(Lines(s)[i])
    ensures forall i :: 0 <= i < |Lines(s)| - 1 ==> |Lines(s)[i]| > 0 && Lines(s)[i][|Lines(s)[i]| - 1] == '\n'
  {
    LinesConcat(s);
    LinesAreLines(s);
    LinesEndBreak(s);
  }

  /** A text that is empty or ends with a line break: appending to it
      starts a new line. */
  predicate EndsLine(s: string) {
    s == [] || s[|s| - 1] == '\n'
  }

  /** LineLength returns the end of the first line. */
  lemma {:induction false} LineLengthAt(s: string, k: nat)
    requires 0 < k <= |s| && '\n' !in s[..k - 1]
    requires k == |s| || s[k - 1] == '\n'
    ensures LineLength(s) == k
  {
    if k > 1 {
      assert s[..k - 1][0] == s[0];
      assert s[1..][..k - 2] == s[..k - 1][1..];
      LineLengthAt(s[1..], k - 1);
    }
  }

  /** A single line is its own only line. */
  lemma LinesOfLine(l: string)
    requires IsLine(l)
    ensures Lines(l) == [l]
  {
    LineLengthAt(l, |l|);
    assert l[..|l|] == l && l[|l|..] == [];
  }

  /** Cutting into lines distributes over a concatenation whose first part
      ends with a line break. */
  lemma {:induction false} LinesAppend(a: string, b: string)
    requires EndsLine(a)
    ensures Lines(a + b) == Lines(a) + Lines(b)
    decreases |a|
  {
    if a == [] {
      assert a + b == b;
    } else {
      var k := LineLength(a);
      FirstLineOfAppend(a, b);
      LinesAppend(a[k..], b);
      LinesCons(a);
      LinesCons(a + b);
      ConsAssoc(a[..k], Lines(a[k..]), Lines(b));
    }
  }

  lemma ConsAssoc<T>(x: T, p: seq<T>, q: seq<T>)
    ensures [x] + (p + q) == ([x] + p) + q
  {
  }

  /** The first line of `a`, which ends with a line break, is also the first
      line of `a + b`. */
  lemma FirstLineOfAppend(a: string, b: string)
    requires |a| > 0 && EndsLine(a)
    ensures var k := LineLength(a);
      && LineLength(a + b) == k
      && (a + b)[..k] == a[..k]
      && (a + b)[k..] == a[k..] + b
      && EndsLine(a[k..])
  {
    var k := LineLength(a);
    assert (a + b)[..k - 1] == a[..k - 1];
    LineLengthAt(a + b, k);
  }

  // ---------------------------------------------------------------------
  // String#chomp (default separator)

  /** Ruby's String#chomp: drops one trailing "\r\n", "\n" or "\r". */
  function Chomp(s: string): string {
    if EndsWith(s, "\r\n") then s[..|s| - 2]
    else if EndsWith(s, "\n") || EndsWith(s, "\r") then s[..|s| - 1]
    else s
  }

  /** Chomp removes a suffix, and that suffix is one line terminator or
      nothing; the text is left as it is exactly when it ends in neither
      '\n' nor '\r', and a trailing "\r\n" goes as one unit. */
  lemma ChompSpec(s: string)
    ensures var r := Chomp(s);
      && |r| <= |s| && s[..|r|] == r
      && (s[|r|..] == "" || s[|r|..] == "\n" || s[|r|..] == "\r" || s[|r|..] == "\r\n")
      && (r == s <==> !EndsWith(s, "\n") && !EndsWith(s, "\r"))
      && (EndsWith(s, "\r\n") ==> r == s[..|s| - 2])
  {
    var r := Chomp(s);
    if EndsWith(s, "\r\n") {
      assert s[|r|..] == s[|s| - 2..] == "\r\n";
      assert s[|s| - 1..] == "\n";
    } else if EndsWith(s, "\n") {
      assert s[|r|..] == s[|s| - 1..] == "\n";
    } else if EndsWith(s, "\r") {
      assert s[|r|..] == s[|s| - 1..] == "\r";
    } else {
      assert s[|r|..] == "";
    }
  }

  // ---------------------------------------------------------------------
  // String#split(/[\t ]+/)

  /** The maximal runs of non-blank characters of `s`, in order. */
  function Words(s: string): seq<string>
    decreases |s|
  {
    if s == [] then []
    else if In(s[0], Blank) then Words(s[1..])
    else
      var n := Span(s, NonBlank);
      [s[..n]] + Words(s[n..])
  }

  /** Every word is a non-empty run of non-blank characters. */
  lemma {:induction false} WordsAreWords(s: string)
    ensures forall i :: 0 <= i < |Words(s)| ==> |Words(s)[i]| > 0 && All(Words(s)[i], NonBlank)
    decreases |s|
  {
    if s != [] {
      if In(s[0], Blank) {
        WordsAreWords(s[1..]);
      } else {
        var n := Span(s, NonBlank);
        WordsAreWords(s[n..]);
        var ws := Words(s);
        assert ws[1..] == Words(s[n..]);
      }
    }
  }

  /** Ruby's split on /[\t ]+/: the fields between blank runs, where a blank
      run at the very start yields a leading empty field and trailing empty
      fields are dropped. */
  function Split(s: string): (ts: seq<string>)
    ensures forall i :: 0 <= i < |ts| ==> All(ts[i], NonBlank)
    ensures |s| > 0 && !In(s[0], Blank) ==> ts == Words(s)
  {
    var ws := Words(s);
    WordsAreWords(s);
    if |ws| > 0 && |s| > 0 && In(s[0], Blank) then [""] + ws else ws
  }

  /** A word followed by a blank, or by nothing, is the first word. */
  lemma WordsOfWord(w: string, rest: string)
    requires |w| > 0 && All(w, NonBlank)
    requires rest == [] || In(rest[0], Blank)
    ensures Words(w + rest) == [w] + Words(rest)
  {
    var s := w + rest;
    if rest == [] {
      assert s == w;
      assert w[..|w|] == w && w[|w|..] == [];
    } else {
      SpanOfConcat(w, rest, NonBlank);
      assert s[..|w|] == w && s[|w|..] == rest;
    }
  }

  /** A text that starts with a word followed by a blank splits into that
      word and the words of the rest. */
  lemma SplitFirstWord(w: string, rest: string)
    requires |w| > 0 && All(w, NonBlank)
    requires |rest| > 0 && In(rest[0], Blank)
    ensures Split(w + rest) == [w] + Words(rest)
  {
    var s := w + rest;
    SpanOfConcat(w, rest, NonBlank);
    assert s[..|w|] == w && s[|w|..] == rest;
  }

  /** Leading blanks do not count as a word. */
  lemma {:induction false} WordsAfterBlanks(b: string, x: string)
    requires All(b, Blank)
    ensures Words(b + x) == Words(x)
    decreases |b|
  {
    if b != [] {
      assert In(b[0], Blank);
      assert (b + x)[0] == b[0] && (b + x)[1..] == b[1..] + x;
      WordsAfterBlanks(b[1..], x);
    } else {
      assert b + x == x;
    }
  }

  /** A text that starts with blanks splits into an empty first field, then
      its words. */
  lemma SplitLeadingBlank(b: string, w: string, rest: string)
    requires |b| > 0 && All(b, Blank)
    requires |w| > 0 && All(w, NonBlank)
    requires rest == [] || In(rest[0], Blank)
    ensures Split(b + w + rest) == ["", w] + Words(rest)
  {
    var s := b + (w + rest);
    assert b + w + rest == s;
    WordsAfterBlanks(b, w + rest);
    WordsOfWord(w, rest);
    assert s[0] == b[0] && In(s[0], Blank);
    assert [""] + ([w] + Words(rest)) == ["", w] + Words(rest);
  }

  /** A text of blanks only has no field at all. */
  lemma SplitBlanks(b: string)
    requires All(b, Blank)
    ensures Split(b) == []
  {
    WordsAfterBlanks(b, []);
    assert b + [] == b;
  }

  // ---------------------------------------------------------------------
  // Base-16 numbers

  /** What String#to_i(16) accepts as a digit. */
  predicate IsHexChar(c: char) {
    '0' <= c <= '9' || 'A' <= c <= 'F' || 'a' <= c <= 'f'
  }

  predicate IsHexString(s: string) {
    forall i :: 0 <= i < |s| ==> IsHexChar(s[i])
  }

  function DigitValue(c: char): (v: nat)
    requires IsHexChar(c)
    ensures v < 16
  {
    if '0' <= c <= '9' then c as int - '0' as int
    else if 'A' <= c <= 'F' then c as int - 'A' as int + 10
    else c as int - 'a' as int + 10
  }

  /** The value of a string of hex digits, most significant first. */
  function HexValue(s: string): nat
    requires IsHexString(s)
  {
    if s == [] then 0
    else 16 * HexValue(s[..|s| - 1]) + DigitValue(s[|s| - 1])
  }

  /** The lower-case digit "%x" prints for `d`. */
  function LowerDigit(d: nat): (c: char)
    requires d < 16
    ensures IsHexChar(c) && DigitValue(c) == d
    ensures !('A' <= c <= 'F')
  {
    if d < 10 then ('0' as int + d) as char else ('a' as int + d - 10) as char
  }

  /** "%x": the shortest lower-case hex spelling of `v`; parsing it back
      gives `v`. */
  function ToHex(v: nat): (h: string)
    ensures |h| > 0 && IsHexString(h)
    ensures forall i :: 0 <= i < |h| ==> !('A' <= h[i] <= 'F')
    ensures HexValue(h) == v
    ensures |h| > 1 ==> h[0] != '0'
  {
    if v < 16 then [LowerDigit(v)]
    else
      var p := ToHex(v / 16);
      var h := p + [LowerDigit(v % 16)];
      assert h[..|h| - 1] == p;
      h
  }

  /** `n` copies of `c`, as Ruby's `c * n`. */
  function Repeat(c: char, n: nat): (s: string)
    ensures |s| == n
    ensures forall i :: 0 <= i < n ==> s[i] == c
  {
    if n == 0 then [] else Repeat(c, n - 1) + [c]
  }

  lemma ZerosAreHex(n: nat, h: string)
    requires IsHexString(h)
    ensures IsHexString(Repeat('0', n) + h)
  {
    var s := Repeat('0', n) + h;
    forall i | 0 <= i < |s|
      ensures IsHexChar(s[i])
    {
      if i < n {
        assert s[i] == Repeat('0', n)[i];
      } else {
        assert s[i] == h[i - n];
      }
    }
  }

  /** Leading zeros do not change a hex value. */
  lemma {:induction false} ZerosPrefixValue(n: nat, h: string)
    requires IsHexString(h)
    ensures IsHexString(Repeat('0', n) + h)
    ensures HexValue(Repeat('0', n) + h) == HexValue(h)
  {
    ZerosAreHex(n, h);
    var s := Repeat('0', n) + h;
    if h == [] {
      assert s == Repeat('0', n);
      if n > 0 {
        ZerosAreHex(n - 1, []);
        assert s[..|s| - 1] == Repeat('0', n - 1) + [];
        assert s[|s| - 1] == '0';
        ZerosPrefixValue(n - 1, []);
      }
    } else {
      var h' := h[..|h| - 1];
      assert IsHexString(h') by {
        assert forall i :: 0 <= i < |h'| ==> h'[i] == h[i];
      }
      ZerosAreHex(n, h');
      assert s[..|s| - 1] == Repeat('0', n) + h';
      assert s[|s| - 1] == h[|h| - 1];
      ZerosPrefixValue(n, h');
    }
  }

  /** "%08x": lower-case hex, zero-padded on the left to at least 8 digits. */
  function Hex8(v: nat): (h: string)
    ensures |h| >= 8 && IsHexString(h)
    ensures forall i :: 0 <= i < |h| ==> !('A' <= h[i] <= 'F')
    ensures HexValue(h) == v
    ensures |h| > 8 ==> h == ToHex(v)
  {
    var d := ToHex(v);
    if |d| < 8 then
      ZerosPrefixValue(8 - |d|, d);
      Repeat('0', 8 - |d|) + d
    else d
  }
}

=== FILE: types.dfy ===
/**
 * Shared value types of the MSR header generator: an optional value, the
 * two ways the script can stop with an exception, and a result that carries
 * either a value or one of those faults.
 */
module Types {

  datatype Option<+T> = None | Some(value: T)

  /** The exceptions the script raises on malformed input. */
  datatype Fault =
    /** A record line (hex address) appeared before any section header, so
        the current family is still nil when the line is pushed into it. */
    | RecordBeforeHeader(line: nat)
    /** A record's text has no token in the name column (split[1] or split[2]
        is nil), so a string method is called on nil. */
    | MissingName(text: string)

  datatype Result<+T> = Ok(value: T) | Err(fault: Fault) {

    predicate IsFailure() {
      Err?
    }

    function PropagateFailure<U>(): Result<U>
      requires Err?
    {
      Err(fault)
    }

    function Extract(): T
      requires Ok?
    {
      value
    }
  }
}
